=== FILE: README.md ===
# CC1101 radio link through an MSP430 bridge — a Dafny model

This project models the host side of the tnc1101 radio link (`tnc1101/radio.c`), which has three parts.

**The register-parameter encoder.** It turns a link configuration into the CC1101 register words of the parameter record sent to the bridge:
- FREQ from the carrier frequency, on 64 bits and cast to 32;
- FREQ_IF, with the `uint32_t` product, the `uint8_t` cast and the modulo 32;
- MOD_FORMAT, through a partial two-way table;
- CHANBW, by a first-match scan of a 16-entry threshold table, applying Carson's rule;
- DRATE and DEVIATN, as floor-log2 exponents and truncated mantissas, with the exponents masked after the mantissas are computed.

It also covers the inverse formulas used for diagnostics: the programmed data rate and the byte time.

**The command transport.** Requests are framed as `[type, length, payload]` in a 257-byte scratch buffer. Replies are collected by `read_usb`, a loop of non-blocking reads of 14 bytes. Each read is followed by a decrement of a `uint32_t` counter. The loop stops at the first positive count or when the counter reaches 0.

**The status report.** It decodes the twelve register bytes of a STATUS reply, including `rssi_dbm` and the `state_names` table.

The double-precision arithmetic of the encoder is modelled on exact reals:
- floor(log2 x) is characterised by the bracket 2^e <= x < 2^(e+1) (`Numeric.Log2Floor`);
- the `(uint8_t)` cast of a non-negative double is truncation (`Numeric.Trunc`).

Integer widths are written out where they matter:
- the 64-bit FREQ product and its `uint32_t` cast;
- the 32-bit IF product, which wraps;
- the `uint8_t` length byte of a TX request, which wraps;
- the `uint32_t` poll counter.

For the counter, a timeout of 0 first wraps to 2^32 - 1. `read_usb` called with 0 therefore makes up to 2^32 reads, and `Transport.ReadBudget` states this.

The serial link is not executed:
- a request's effect is the byte sequence it would write;
- the non-blocking read is an oracle `attempt: nat -> ReadAttempt`, giving the count and the bytes of the i-th read.

The crystal (`F_XTAL_MHZ`, a whole number of MHz; see Left out), `rate_values`, `nb_preamble_bytes` and the `MSP430_BLOCK_TYPE_*` codes are defined in headers that are not part of this model. They are parameters: `RegisterEncoder.Board` and `Transport.BlockTypes`.

`radio_send_block` stages the whole block after the TX header: its comment (tnc1101/radio.c:542-545) describes the block, and line 553 copies it. Line 555 then writes only the two header bytes. The model follows the code (`Transport.RadioSendBlock`) and records the difference under Findings.

Modules, one per file:
- `Numeric`: C integer types, powers of two, floor(log2), truncation, and division and bit lemmas.
- `Wrappers`: `Option`.
- `Modulation`: `get_mod_word` and `get_mod_code`.
- `ChannelBandwidth`: `chanbw_limits` and `get_chanbw_words`.
- `DataRate`: `get_rate_words` and `radio_get_rate`.
- `RegisterEncoder`: `get_freq_word`, `get_if_word`, `init_radio_parms` and `radio_get_byte_time`.
- `RadioStatus`: `rssi_dbm`, `state_names` and the status decode.
- `Transport`: `read_usb`, `init_radio`, `print_radio_status` and `radio_send_block`.

## Model

| member | source | states |
|---|---|---|
| Numeric.Log2Floor | tnc1101/radio.c:237 | The exponent taken by `floor(log2(x))` for x >= 1 satisfies 2^e <= x < 2^(e+1). |
| Numeric.Log2FloorUnique | tnc1101/radio.c:237 | The bracket determines the exponent: any e with 2^e <= x < 2^(e+1) is floor(log2 x). |
| Numeric.Trunc | tnc1101/radio.c:238 | A double converted to an integer type is truncated toward zero: it is within 1 of the value, on the side of 0. |
| Modulation.ModWord | tnc1101/radio.c:138-161 | Every modulation maps to a word in {0, 1, 3, 4, 7}. The word is 0 exactly for 2-FSK and for the codes without an entry, such as NONE. |
| Modulation.ModCode | tnc1101/radio.c:164-187 | A word decodes to NONE exactly when it is not one of 0, 1, 3, 4 and 7. |
| Modulation.ModulationRoundTrip | tnc1101/radio.c:138-187 | Decoding the word of OOK, 2-FSK, 4-FSK, MSK or GFSK gives back that modulation. |
| Modulation.ModWordRoundTrip | tnc1101/radio.c:138-187 | Every word of the table survives decoding and re-encoding. |
| Modulation.ModNoneIsNotRoundTripped | tnc1101/radio.c:138-187 | NONE encodes to 0, which decodes to 2-FSK: the two fallbacks disagree. |
| ChannelBandwidth.LimitsStrictlyDecreasing | tnc1101/radio.c:58-75 | The 16 bandwidth thresholds strictly decrease in scan order. |
| ChannelBandwidth.FirstExceeded | tnc1101/radio.c:191-211 | Reference scan from index i: every entry it passes is >= bw, and the entry it stops at is < bw, unless it stops at 16. |
| ChannelBandwidth.ChanbwIndex | tnc1101/radio.c:191-211 | The selected index 4e+m is the first threshold below bw, with all earlier ones >= bw. It is 15 when no threshold is below bw. |
| ChannelBandwidth.GetChanbwWords | tnc1101/radio.c:191-211 | The nested scan with early return gives e, m in 0..3. The threshold at 4e+m is the first below bw, or the result is (3, 3) when none is. It equals the reference index. |
| ChannelBandwidth.ChanbwMonotone | tnc1101/radio.c:191-211 | A wider required bandwidth never selects a later, narrower table entry. |
| ChannelBandwidth.ChanbwSelectsBracket | tnc1101/radio.c:58-75 | Above the last threshold, every entry from the selected one on is below bw, and bw lies between the selected threshold and the one before it. |
| DataRate.WorkingRate | tnc1101/radio.c:223-230 | The working rate is table rate times skew, except that 4-FSK above 300000 baud becomes exactly 300000. It never exceeds rate times skew. |
| DataRate.DeviationFor | tnc1101/radio.c:232 | The deviation is the rate times the modulation index: its ratio to a non-zero rate is the index, and it is not negative for a non-negative rate and index. |
| DataRate.CarsonBandwidth | tnc1101/radio.c:235 | The bandwidth handed to the CHANBW selection is at least twice the rate and twice the deviation, and half of it exceeds the rate by exactly the deviation. |
| DataRate.ExponentBound | tnc1101/radio.c:237 | An argument below 2^31 gives floor(log2) <= 30, so the `1 << e` shifts stay defined. |
| DataRate.DrateMantissa | tnc1101/radio.c:237-238 | When 2^e brackets rate*2^20/xtal, the truncated DRATE mantissa lies in 0..255. The programmed rate is at most the requested one and less than one step below it. |
| DataRate.DeviationMantissa | tnc1101/radio.c:241-242 | When 2^e brackets dev*2^14/xtal, the truncated DEVIATION mantissa lies in 0..7. The programmed deviation is at most the requested one and less than one step below it. |
| DataRate.EncodeDrate | tnc1101/radio.c:237-238 | The unmasked exponent is at most 30 and the mantissa lies in 0..255. Evaluating the DRATE formula at the unmasked exponent brackets the requested rate within one mantissa step. |
| DataRate.EncodeDeviation | tnc1101/radio.c:241-242 | The unmasked exponent is at most 30 and the mantissa lies in 0..7. Evaluating the DEVIATION formula at the unmasked exponent brackets the deviation within one mantissa step. |
| DataRate.DrateWords | tnc1101/radio.c:237-239 | DRATE_E is the unmasked exponent `& 0x0F` and DRATE_M the mantissa computed at the unmasked exponent. When that exponent is below 16, the words bracket the requested rate within one mantissa step. From 16 on, they program exactly 2^16 times less than the rate the mantissa was computed for. |
| DataRate.DeviationWords | tnc1101/radio.c:241-244 | DEVIATION_E is the unmasked exponent `& 0x07` and DEVIATION_M the mantissa computed at the unmasked exponent. When that exponent is below 8, the words bracket the requested deviation within one step. From 8 on, they program the deviation the mantissa was computed for divided by 2^(e - e % 8). |
| DataRate.GetRateWords | tnc1101/radio.c:218-245 | CHANBW is the bandwidth selection at 2*(rate*index + rate). The DRATE and DEVIATION words are the masked words of the working rate and of its deviation, so the bracket and mask-effect clauses of `DataRate.DrateWords` and `DataRate.DeviationWords` hold for them. |
| DataRate.DrateStepRelative | tnc1101/radio.c:399-405 | One DRATE_M step is at most 1/256 of the rate a mantissa and an exponent program. |
| DataRate.DeviatStepRelative | tnc1101/radio.c:241-242 | One DEVIATION_M step is at most 1/8 of the programmed deviation. |
| DataRate.DeviationOf | tnc1101/radio.c:217 | (Fxosc/2^17)*(8+m)*2^e, the deviation a mantissa and exponent program: positive for a mantissa above -8, and at least its exponent-0 value. |
| DataRate.RadioGetRate | tnc1101/radio.c:399-405 | The rate a mantissa above -256 and any exponent program is positive and at least the exponent-0 rate of the mantissa. |
| DataRate.DrateExponentMaskShrinks | tnc1101/radio.c:239 | For an unmasked exponent in 16..31, the 4-bit mask makes the programmed rate exactly 2^16 times smaller than the rate the mantissa was computed for. |
| DataRate.DeviationExponentDrop | tnc1101/radio.c:241-243 | Lowering DEVIATION_E from e to any k <= e, as the 3-bit mask does, divides the programmed deviation by exactly 2^(e - k). |
| DataRate.DeviationDoubles | tnc1101/radio.c:241-243 | Each step of DEVIATION_E doubles the programmed deviation. |
| DataRate.DeviationMaskExample | tnc1101/radio.c:241-243 | A 500 kHz deviation at a 26 MHz crystal needs DEVIATION_E = 8, and the mask turns it into 0. |
| DataRate.ScaleConstants | tnc1101/radio.c:237-242 | The real constants 2^14, 2^17, 2^20, 2^28 and 2^31 of the rate formulas are the powers of two `Numeric.Pow2` defines. |
| RegisterEncoder.XtalHz | tnc1101/radio.c:132 | The crystal frequency in Hz is at least 1 MHz and fits both a signed 32-bit `int` and the `uint32_t` it is stored in. |
| RegisterEncoder.FreqWord | tnc1101/radio.c:119-125 | The FREQ word w satisfies w*xtal <= freq*2^16 < w*xtal + xtal, so the 32-bit cast never truncates. The word is < 2^24 when freq < 256*xtal. |
| RegisterEncoder.FreqWordMonotone | tnc1101/radio.c:119-125 | A higher frequency never gives a lower FREQ word. |
| RegisterEncoder.FreqWordIsFloor | tnc1101/radio.c:119-125 | Any w with the floor bracket is the FREQ word: the word is exactly floor(freq*2^16/xtal). |
| RegisterEncoder.IfWord | tnc1101/radio.c:129-134 | The IF word is < 32. When IF*2^10 fits in 32 bits, it equals floor(IF*2^10/xtal) mod 32. |
| RegisterEncoder.IfWordIsFloor | tnc1101/radio.c:129-134 | Without wrap and below 32 crystal steps, the IF word brackets IF*2^10 between w*xtal and w*xtal + xtal. |
| RegisterEncoder.IfWordWrapsAt32Steps | tnc1101/radio.c:133 | With a 26 MHz crystal, an IF of exactly 32 steps (812500 Hz) gives the word 0. |
| RegisterEncoder.FecWhitening | tnc1101/radio.c:419 | The combined byte is < 4, with bit 0 set exactly when FEC is on and bit 1 set exactly when whitening is on. |
| RegisterEncoder.InitRadioParms | tnc1101/radio.c:409-431 | The assembled record has all of the following: the FREQ bracket; the IF word `RegisterEncoder.IfWord` of the configured IF, below 32; a modulation word that decodes back to the configured format, or 0 for NONE; channel spacing 0; the FEC and whitening bits; the packet length copied; variable-length config exactly when asked; the preamble table entry; the Carson bandwidth index; DRATE words equal to `DataRate.DrateWords` of the working rate and DEVIATN words equal to `DataRate.DeviationWords` of its deviation, so their bracket and mask-effect clauses hold for the record; and exponents within their masks. |
| RegisterEncoder.InitRadioParmsRate | tnc1101/radio.c:399-431 | When the unmasked DRATE exponent is below 16, the rate the bridge will run at is the requested working rate rounded down by less than one DRATE_M step, so it is low by less than 1/256 of itself. |
| RegisterEncoder.ParmsRate | tnc1101/radio.c:399-405 | The rate a parameter record programs is positive and at least 256 DRATE_M steps. |
| RegisterEncoder.ByteTime | tnc1101/radio.c:379-395 | The byte time is positive. Its product with the programmed rate is 8e6, halved for 4-FSK and doubled when bit 0 of the FEC/whitening byte is set. |
| RadioStatus.StateName | tnc1101/radio.c:22-55 | Every state register has a name from the 32-entry table, and the name is "undefined" exactly for codes 23 to 31. |
| RadioStatus.RssiDbm | tnc1101/radio.c:104-115 | RSSI lies in [-138, -10.5] dBm and is >= -74 exactly when the raw byte is below 128. |
| RadioStatus.RssiRoundTrip | tnc1101/radio.c:104-115 | Every raw byte maps to a reading on the half-dB grid, and the inverse recovers the byte. |
| RadioStatus.RssiReadingRoundTrip | tnc1101/radio.c:104-115 | Every half-dB reading in range is recovered from its raw byte. |
| RadioStatus.RssiExamples | tnc1101/radio.c:104-115 | 0 maps to -74, 127 to -10.5, 128 to -138 and 255 to -74.5 dBm. |
| RadioStatus.DecodeFlagged | tnc1101/radio.c:479-480 | A flag-and-count register (LQI with CRC OK here, and TXBYTES and RXBYTES at lines 491-494) splits into bit 7 and a count < 128. |
| RadioStatus.FlaggedRoundTrip | tnc1101/radio.c:491-494 | The flag and the 7-bit count the report prints for TXBYTES and RXBYTES (and for LQI, lines 479-480) together recover the byte. |
| RadioStatus.PacketStatusRoundTrip | tnc1101/radio.c:484-489 | Six PKTSTATUS flags placed at bits 6, 5, 4, 3, 2 and 0 read back as themselves, and bits 7 and 1 stay clear. |
| RadioStatus.PacketStatusRoundTripBack | tnc1101/radio.c:484-489 | A PKTSTATUS byte with bits 7 and 1 clear is recovered from the six flags the report shows. |
| RadioStatus.DecodePacketStatus | tnc1101/radio.c:484-489 | The six printed PKTSTATUS flags lose only bits 7 and 1: they rebuild every byte with those two bits cleared, and a byte with them clear exactly. |
| RadioStatus.DecodeStatus | tnc1101/radio.c:474-494 | The twelve bytes decode to a record whose fields fit their bit widths and whose RSSI lies on its grid. CRC OK and the FIFO flags are bit 7. The state is the low 5 bits. WOR time is the big-endian pair of regs[6] and regs[7]. |
| RadioStatus.EncodeStatus | tnc1101/radio.c:474-494 | Every valid record has twelve register bytes with no hidden bits set. |
| RadioStatus.DecodeEncode | tnc1101/radio.c:474-494 | Every record a reply can decode to is recovered from its register bytes. |
| RadioStatus.DecodeStatusShows | tnc1101/radio.c:476-494 | For every twelve bytes, whatever the hidden bits hold: part number, version, offset and VCO are copied; the LQI, TX and RX FIFO bytes are rebuilt from their flag and count; the RSSI byte is rebuilt from its reading; the state is the low 5 bits; PKTSTATUS is rebuilt less bits 7 and 1. So only the top 3 bits of the state byte and bits 7 and 1 of PKTSTATUS are lost. |
| RadioStatus.EncodeDecode | tnc1101/radio.c:474-494 | Register bytes without hidden bits are recovered from the decoded report. |
| Transport.Envelope | tnc1101/radio.c:440-446 | A request frame is the type, the payload length and the payload, and is 2 bytes longer than the payload. |
| Transport.ParseEnvelope | tnc1101/radio.c:440-446 | A frame parses exactly when its length byte counts the bytes after the header. |
| Transport.ParseEnvelopeRoundTrip | tnc1101/radio.c:440-446 | Every framed payload parses back to its type and payload. |
| Transport.EnvelopeRoundTrip | tnc1101/radio.c:440-446 | Every frame that parses is the envelope of what it parses to. |
| Transport.Stage | tnc1101/radio.c:440-442 | Staging puts the type and the length byte in the header and the payload right after it, and leaves the rest of the buffer unchanged. |
| Transport.Deliver | tnc1101/radio.c:256 | A positive read overwrites exactly the first count bytes of the buffer, and a non-positive one leaves it unchanged. |
| Transport.Decrement | tnc1101/radio.c:258 | The `uint32_t` decrement lowers a positive counter by one and wraps 0 to 2^32 - 1. |
| Transport.ReadBudget | tnc1101/radio.c:254-259 | The number of reads allowed is the timeout when it is at least 1, and 2^32 when it is 0. |
| Transport.LastRead | tnc1101/radio.c:254-259 | Reference poll: the read that ends it is the first positive one, or else the last one allowed, and every read before it is non-positive. |
| Transport.LastReadUnique | tnc1101/radio.c:254-259 | That characterisation has exactly one solution. |
| Transport.Poll | tnc1101/radio.c:249-262 | A poll makes between 1 and budget reads and returns the count of its last read. It ends early only on a positive count. |
| Transport.PollKeepsUndelivered | tnc1101/radio.c:256 | A successful poll overwrites only the bytes delivered by its last read, and a failed one leaves the buffer unchanged. |
| Transport.PollEnds | tnc1101/radio.c:254-259 | A poll whose reads before k are all non-positive, and whose read k is positive or the last one allowed, makes k + 1 reads and returns read k's count and bytes. |
| Transport.ReadUsb | tnc1101/radio.c:249-262 | The loop makes at most `timeout` reads, or 2^32 for 0. It returns the first positive count at once, or the last count after exactly the budget of non-positive reads. Each read delivers at most 14 bytes (`Transport.ValidAttempt`). The buffer holds the delivered bytes followed by its old contents. The result equals the reference poll. |
| Transport.InitRadio | tnc1101/radio.c:435-452 | The buffer is staged with the INIT envelope of the parameter bytes and leaves the rest of the caller's buffer unchanged. The written bytes are that envelope, length n + 2, and they parse back to that payload. The reply is the poll with budget 10000. |
| Transport.RequestStatus | tnc1101/radio.c:462-470 | The STATUS request stages the type byte and a zero length over the caller's buffer, writes those 2 bytes, and polls with budget 10000. Reply bytes after the count are still the staged buffer. |
| Transport.PrintRadioStatus | tnc1101/radio.c:456-494 | A report exists exactly when the count is positive. It decodes buffer bytes 2..13 whatever the count. The staged buffer keeps the caller's bytes from 2 on, so for a count of 2 or more the bytes past the count are the caller's own. |
| Transport.TxLength | tnc1101/radio.c:552 | The TX length byte is block[0] + 2 for block[0] <= 253, and wraps to block[0] - 254 above. |
| Transport.TxLengthWraps | tnc1101/radio.c:552 | A size byte of 254 or 255 stages only 0 or 1 bytes, fewer than the block holds. |
| Transport.RadioSendBlock | tnc1101/radio.c:546-561 | As written: the buffer holds the TX envelope of the first length-byte bytes of the block, and the rest of the caller's buffer is unchanged. Only the 2 header bytes are written, and the reply is polled with budget timeout_us/10. |
| Transport.SendBlockFrameIncomplete | tnc1101/radio.c:555 | The 2-byte TX frame that is written never parses as a request when the length byte is positive. |
| Transport.SendBlockFrameIncompleteExample | tnc1101/radio.c:555 | The block [1, 0, 0x55] announces 3 payload bytes, but none are sent. |
| Transport.RadioSendBlockCorrected | tnc1101/radio.c:546-561 | Writing the whole staged frame makes the bridge parse exactly the block: its first block[0] + 2 bytes. The staging leaves the rest of the caller's buffer unchanged. |

## Left out

- I/O: `read_serial`, `write_serial`, `usleep` and the device are not modelled. Reads are an oracle of counts and bytes, and writes are the returned byte sequence.
- Printing: `fprintf` and `verbprintf`, including the whole of `print_radio_parms` (tnc1101/radio.c:511-539). Its rate and deviation formulas are `DataRate.RadioGetRate` and `DataRate.DeviationOf`. Its frequency, IF, spacing and bandwidth lines are only display.
- Floating point: IEEE rounding of `log2`, `floor` and the divisions is not modelled, nor is the rounding of the `double` products at tnc1101/radio.c:224, 232 and 235, the narrowing of the Carson bandwidth to the `float` parameter of `get_chanbw_words` (tnc1101/radio.c:191, 235), or the `float` arithmetic and results of `radio_get_byte_time`, `radio_get_rate` and `rssi_dbm` (tnc1101/radio.c:107-114, 382-392, 402-404). Exact reals are used, so a value that lands on a power of two or a mantissa boundary in real arithmetic may round differently in `double`.
- The byte layout of `msp430_radio_parms_t`: the header that defines it is not part of this model. `Transport.InitRadio` takes the record's bytes as a parameter of fewer than 256 bytes.
- The commented-out legacy code (tnc1101/radio.c:264-321, 324-375, 563-786) is not compiled, and the counters `blocks_sent`, `blocks_received` and `packets_*` (tnc1101/radio.c:78-81) are unused.
- RegisterEncoder.XtalHz: the crystal is modelled as a whole number of MHz from 1 to 2147, so that `F_XTAL_MHZ * 1000000` fits a signed 32-bit `int` (if the macro is a plain `int`, the product overflows above 2147 MHz) and so the `uint32_t` of `get_if_word`. Fractional-MHz crystals and larger values are not modelled.
- RadioStatus.StateName: states that the name comes from the table and is "undefined" exactly for codes 23 to 31, but not which of the table's names a code 0 to 22 gets.
- RegisterEncoder.InitRadioParms: the FEC and whitening arguments are booleans, so the sum `fec + 2*whitening` never exceeds 3. Other integer values of those fields are not modelled.
- RegisterEncoder.FreqWord: the frequency and IF fields are taken to be `uint32_t`, as the headers that declare them are not part of this model.
- DataRate.GetRateWords: requires both floor(log2) arguments in [1, 2^31). Below 1 the C code casts a negative floor to `uint8_t`, and at 2^31 and above `1 << e` overflows `int`. The rate bracket is stated only when the unmasked exponent fits its field; otherwise the mask-effect clauses of `DataRate.DrateWords` and `DataRate.DeviationWords` state what the masked words program.

## Findings

| source | as written | input that shows it | evidently intended | confidence | as-written member | corrected member |
|---|---|---|---|---|---|---|
| tnc1101/radio.c:555 | `radio_send_block` stages the TX header and `dataBlock[0] + 2` block bytes, but writes only the 2 header bytes, so the length byte announces bytes that never follow | block `[1, 0, 0x55]`: length byte 3, 2 bytes written | write `dataBuffer[1] + 2` bytes, as `init_radio` does at line 446 | medium, not executed | Transport.SendBlockFrameIncomplete | Transport.RadioSendBlockCorrected |

=== FILE: chanbw.dfy ===
/** Channel filter bandwidth selection (tnc1101/radio.c, chanbw_limits and
    get_chanbw_words): a first-match scan over a 4 x 4 table of thresholds,
    exponent in the outer loop and mantissa in the inner one. */
module ChannelBandwidth {
  import opened Numeric

  /** `chanbw_limits`, in Hz; entry 4*e + m belongs to CHANBW_E = e, CHANBW_M = m. */
  const ChanbwLimits: seq<real> := [
    812000.0, 650000.0, 541000.0, 464000.0,
    406000.0, 325000.0, 270000.0, 232000.0,
    203000.0, 162000.0, 135000.0, 116000.0,
    102000.0,  81000.0,  68000.0,  58000.0
  ]

  /** The table is strictly decreasing in scan order. */
  lemma LimitsStrictlyDecreasing()
    ensures |ChanbwLimits| == 16
    ensures forall i, j :: 0 <= i < j < 16 ==> ChanbwLimits[i] > ChanbwLimits[j]
  {
  }

  /** Reference definition of the scan from index i on: the first index whose
      threshold is strictly exceeded by `bw`, or 16 when there is none. */
  function FirstExceeded(bw: real, i: nat): (k: nat)
    requires i <= 16
    ensures i <= k <= 16
    ensures forall j :: i <= j < k ==> ChanbwLimits[j] >= bw
    ensures k < 16 ==> ChanbwLimits[k] < bw
    decreases 16 - i
  {
    if i == 16 then 16
    else if bw > ChanbwLimits[i] then i
    else FirstExceeded(bw, i + 1)
  }

  /** The table index 4*e + m the selection settles on: the first threshold
      exceeded, or the narrowest setting (3, 3) when none is. */
  function ChanbwIndex(bw: real): (k: nat)
    ensures k < 16
    ensures forall j :: 0 <= j < k ==> ChanbwLimits[j] >= bw
    ensures ChanbwLimits[k] < bw || (k == 15 && forall j :: 0 <= j < 16 ==> ChanbwLimits[j] >= bw)
  {
    var k := FirstExceeded(bw, 0);
    if k == 16 then 15 else k
  }

  /** `get_chanbw_words`: the nested scan with its early return. */
  method GetChanbwWords(bw: real) returns (e: Byte, m: Byte)
    ensures e < 4 && m < 4
    ensures forall j :: 0 <= j < 4 * e + m ==> ChanbwLimits[j] >= bw
    ensures ChanbwLimits[4 * e + m] < bw || (e == 3 && m == 3 && ChanbwLimits[15] >= bw)
    ensures 4 * e + m == ChanbwIndex(bw)
  {
    var ei := 0;
    while ei < 4
      invariant 0 <= ei <= 4
      invariant forall j :: 0 <= j < 4 * ei ==> ChanbwLimits[j] >= bw
    {
      var mi := 0;
      while mi < 4
        invariant 0 <= mi <= 4
        invariant forall j :: 0 <= j < 4 * ei + mi ==> ChanbwLimits[j] >= bw
      {
        if bw > ChanbwLimits[4 * ei + mi] {
          e, m := ei, mi;
          return;
        }
        mi := mi + 1;
      }
      ei := ei + 1;
    }
    e, m := 3, 3;
  }

  /** A larger bandwidth requirement never selects a later (narrower) entry. */
  lemma {:induction false} FirstExceededMonotone(bw1: real, bw2: real, i: nat)
    requires bw1 < bw2 && i <= 16
    ensures FirstExceeded(bw2, i) <= FirstExceeded(bw1, i)
    decreases 16 - i
  {
    if i < 16 && !(bw2 > ChanbwLimits[i]) {
      FirstExceededMonotone(bw1, bw2, i + 1);
    }
  }

  lemma ChanbwMonotone(bw1: real, bw2: real)
    requires bw1 < bw2
    ensures ChanbwIndex(bw2) <= ChanbwIndex(bw1)
  {
    FirstExceededMonotone(bw1, bw2, 0);
  }

  /** Each threshold is below the one scanned before it. */
  lemma LimitsStepDown(i: nat)
    requires 0 < i < 16
    ensures ChanbwLimits[i] < ChanbwLimits[i - 1]
  {
  }

  /** A threshold below bw stays below it for the rest of the table. */
  lemma {:induction false} ExceededFrom(bw: real, k: nat, j: nat)
    requires k <= j < 16 && ChanbwLimits[k] < bw
    ensures ChanbwLimits[j] < bw
    decreases j - k
  {
    if k < j {
      ExceededFrom(bw, k, j - 1);
      LimitsStepDown(j);
    }
  }

  /** Because the table decreases, every entry after the selected one is
      exceeded as well: the selected setting is the widest whose threshold lies
      below the requirement, and it sits between its two neighbours. */
  lemma ChanbwSelectsBracket(bw: real)
    requires bw > ChanbwLimits[15]
    ensures forall j :: ChanbwIndex(bw) <= j < 16 ==> ChanbwLimits[j] < bw
    ensures ChanbwIndex(bw) > 0 ==> ChanbwLimits[ChanbwIndex(bw)] < bw <= ChanbwLimits[ChanbwIndex(bw) - 1]
  {
    var k := ChanbwIndex(bw);
    forall j | k <= j < 16
      ensures ChanbwLimits[j] < bw
    {
      ExceededFrom(bw, k, j);
    }
  }
}

=== FILE: datarate.dfy ===
/** Data rate, deviation and channel bandwidth words (tnc1101/radio.c,
    get_rate_words, radio_get_rate), and the inverse formulas

      DRATE     = (Fxosc / 2^28) * (256 + DRATE_M) * 2^DRATE_E
      DEVIATION = (Fxosc / 2^17) * (8 + DEVIATION_M) * 2^DEVIATION_E

    The C code computes in `double`; here the arithmetic is on exact reals,
    floor(log2 x) is `Log2Floor` and the `(uint8_t)` casts are `Trunc`. */
module DataRate {
  import opened Numeric
  import opened Modulation
  import opened ChannelBandwidth

  /** The rate 4-FSK is forcibly limited to, in baud. */
  const Fsk4MaxRate: real := 300000.0

  /** The powers of two the formulas scale by, as reals; `ScaleConstants`
      ties each to `Pow2`. */
  const Two14: real := 16384.0
  const Two17: real := 131072.0
  const Two20: real := 1048576.0
  const Two28: real := 268435456.0
  const Two31: real := 2147483648.0

  lemma ScaleConstants()
    ensures Two14 == Pow2(14) as real && Two17 == Pow2(17) as real
    ensures Two20 == Pow2(20) as real && Two28 == Pow2(28) as real
    ensures Two31 == Pow2(31) as real
  {
    Pow2Values();
    Pow2Add(8, 6);
    Pow2Add(16, 1);
    Pow2Add(16, 4);
    Pow2Add(16, 12);
  }

  /** The rate the words are derived from: base rate times skew, limited to
      300 kBaud for 4-FSK only. */
  function WorkingRate(baseRate: real, skew: real, mod: Modulation): (r: real)
    ensures r <= baseRate * skew
    ensures mod == Fsk4 ==> r <= Fsk4MaxRate
    ensures r == baseRate * skew || (mod == Fsk4 && r == Fsk4MaxRate)
  {
    var drate := baseRate * skew;
    if mod == Fsk4 && drate > Fsk4MaxRate then Fsk4MaxRate else drate
  }

  /** Carson's rule: the occupied bandwidth is twice deviation plus rate. */
  function CarsonBandwidth(rate: real, deviation: real): (bw: real)
    ensures 0.0 <= rate && 0.0 <= deviation ==> bw >= 2.0 * rate && bw >= 2.0 * deviation
    ensures bw / 2.0 - rate == deviation
  {
    2.0 * (deviation + rate)
  }

  /** An exponent before masking and a mantissa after the `(uint8_t)` cast. */
  datatype ExpMant = ExpMant(e: nat, m: int)

  /** The argument of floor(log2 .) is at least 1 (so the exponent is not
      negative, which the `(uint8_t)` cast cannot represent) and below 2^31
      (so `1 << e` stays within a C `int`). */
  predicate Log2Domain(x: real)
  {
    1.0 <= x < Two31
  }

  /** The mantissa step of the DRATE encoding at exponent e: one unit of
      DRATE_M is worth xtal * 2^e / 2^28 baud. */
  function DrateStep(xtal: real, e: nat): real
  {
    xtal / Two28 * Pow2(e) as real
  }

  /** The mantissa step of the DEVIATN encoding: xtal * 2^e / 2^17 Hz. */
  function DeviatStep(xtal: real, e: nat): real
  {
    xtal / Two17 * Pow2(e) as real
  }

  /** The rate programmed by a mantissa and an exponent, before any masking:
      (Fxosc / 2^28) * (256 + m) * 2^e. */
  function RadioGetRate(xtal: real, m: int, e: nat): (rate: real)
    ensures xtal > 0.0 && m > -256 ==> rate >= RateUnit(xtal, m) > 0.0
  {
    RateUnit(xtal, m) * Pow2(e) as real
  }

  /** The rate of mantissa m at exponent 0: (Fxosc / 2^28) * (256 + m). */
  function RateUnit(xtal: real, m: int): (u: real)
    ensures xtal > 0.0 && m > -256 ==> u > 0.0
  {
    xtal / Two28 * (256.0 + m as real)
  }

  /** The deviation programmed by a mantissa and an exponent:
      (Fxosc / 2^17) * (8 + m) * 2^e. */
  function DeviationOf(xtal: real, m: int, e: nat): (deviat: real)
    ensures xtal > 0.0 && m > -8 ==> deviat >= DeviationUnit(xtal, m) > 0.0
  {
    DeviationUnit(xtal, m) * Pow2(e) as real
  }

  /** The deviation of mantissa m at exponent 0: (Fxosc / 2^17) * (8 + m). */
  function DeviationUnit(xtal: real, m: int): (u: real)
    ensures xtal > 0.0 && m > -8 ==> u > 0.0
  {
    xtal / Two17 * (8.0 + m as real)
  }

  /** An argument of floor(log2 .) below 2^31 gives an exponent of at most 30. */
  lemma ExponentBound(x: real, e: nat)
    requires Log2Domain(x) && e == Log2Floor(x)
    ensures e <= 30
  {
    ScaleConstants();
    Pow2Inverse(e, 31);
  }

  /** The DRATE computation on plain reals: p = 2^e brackets
      x = rate * 2^20 / xtal, v = rate * 2^28 / (xtal * p) and
      m = (uint8_t)(v - 256). */
  lemma DrateMantissa(drate: real, xtal: real, x: real, p: real, v: real, m: int)
    requires xtal > 0.0 && p >= 1.0 && x == drate * Two20 / xtal
    requires p <= x < 2.0 * p
    requires v == drate * Two28 / (xtal * p) && m == Trunc(v - 256.0)
    ensures 0 <= m < 256
    ensures xtal / Two28 * (256.0 + m as real) * p <= drate
    ensures drate < xtal / Two28 * (256.0 + m as real) * p + xtal / Two28 * p
  {
    MantissaInRange(drate, xtal, x, p, v, Two20, Two28, 256.0);
    TruncMantissa(v, 256.0, m);
    MantissaBracket(drate, xtal, p, v, m, Two28, 256.0);
  }

  /** The DEVIATN computation on plain reals: x = dev * 2^14 / xtal,
      v = dev * 2^17 / (xtal * p) and m = (uint8_t)(v - 8). */
  lemma DeviationMantissa(deviat: real, xtal: real, x: real, p: real, v: real, m: int)
    requires xtal > 0.0 && p >= 1.0 && x == deviat * Two14 / xtal
    requires p <= x < 2.0 * p
    requires v == deviat * Two17 / (xtal * p) && m == Trunc(v - 8.0)
    ensures 0 <= m < 8
    ensures xtal / Two17 * (8.0 + m as real) * p <= deviat
    ensures deviat < xtal / Two17 * (8.0 + m as real) * p + xtal / Two17 * p
  {
    MantissaInRange(deviat, xtal, x, p, v, Two14, Two17, 8.0);
    TruncMantissa(v, 8.0, m);
    MantissaBracket(deviat, xtal, p, v, m, Two17, 8.0);
  }

  lemma RadioGetRateWith(xtal: real, m: int, e: nat, p: real)
    requires p == Pow2(e) as real
    ensures RadioGetRate(xtal, m, e) == xtal / Two28 * (256.0 + m as real) * p
    ensures DrateStep(xtal, e) == xtal / Two28 * p
  {
  }

  lemma DeviationOfWith(xtal: real, m: int, e: nat, p: real)
    requires p == Pow2(e) as real
    ensures DeviationOf(xtal, m, e) == xtal / Two17 * (8.0 + m as real) * p
    ensures DeviatStep(xtal, e) == xtal / Two17 * p
  {
  }

  /** Both encodings share one shape: with p = 2^floor(log2(value * expScale / xtal))
      and mantScale = expScale * bias, the scaled value
      v = value * mantScale / (xtal * p) lies in [bias, 2 * bias), so that
      v - bias is a valid mantissa. */
  lemma MantissaInRange(value: real, xtal: real, x: real, p: real, v: real,
                        expScale: real, mantScale: real, bias: real)
    requires xtal > 0.0 && p >= 1.0 && bias > 0.0 && expScale > 0.0
    requires x == value * expScale / xtal && p <= x < 2.0 * p
    requires mantScale == expScale * bias
    requires v == value * mantScale / (xtal * p)
    ensures bias <= v < 2.0 * bias
  {
    var q := xtal * p;
    var u := value * expScale;
    DivBounds(u, xtal, p, 2.0 * p);
    DivMul(value * mantScale, q);
    assert value * mantScale == u * bias;
    ScaledIntoRange(u, q, bias, v);
  }

  /** The truncated mantissa: v - bias is not negative, so the cast floors it. */
  lemma TruncMantissa(v: real, bias: real, m: int)
    requires bias <= v < 2.0 * bias && m == Trunc(v - bias)
    ensures 0 <= m && m as real < bias
    ensures m as real <= v - bias < m as real + 1.0
  {
  }

  /** Multiplying the mantissa bracket back out: the programmed value
      (xtal / mantScale) * (bias + m) * p is the requested value rounded down to
      a whole step of xtal * p / mantScale. */
  lemma MantissaBracket(value: real, xtal: real, p: real, v: real, m: int, mantScale: real, bias: real)
    requires xtal > 0.0 && p >= 1.0 && mantScale > 0.0
    requires v == value * mantScale / (xtal * p)
    requires m as real <= v - bias < m as real + 1.0
    ensures xtal / mantScale * (bias + m as real) * p <= value
    ensures value < xtal / mantScale * (bias + m as real) * p + xtal / mantScale * p
  {
    var q := xtal * p;
    DivMul(value * mantScale, q);
    var lo := bias + m as real;
    ScaledBack(value * mantScale, q, v, lo, lo + 1.0);
    StepsToUnits(value, xtal, p, lo, lo + 1.0, mantScale);
  }

  /** With q <= u < 2q and v * q == u * bias, v lies in [bias, 2 * bias). */
  lemma ScaledIntoRange(u: real, q: real, bias: real, v: real)
    requires q > 0.0 && bias > 0.0
    requires q <= u < 2.0 * q
    requires v * q == u * bias
    ensures bias <= v < 2.0 * bias
  {
    MulLe(q, u, bias);
    MulLt(u, 2.0 * q, bias);
    CancelLe(bias, v, q);
    CancelLt(v, 2.0 * bias, q);
  }

  /** A bracket lo <= v < hi on v becomes a bracket on v * q. */
  lemma ScaledBack(w: real, q: real, v: real, lo: real, hi: real)
    requires q > 0.0 && v * q == w
    requires lo <= v < hi
    ensures lo * q <= w < hi * q
  {
    MulLe(lo, v, q);
    MulLt(v, hi, q);
  }

  /** Dividing the bracket lo * (xtal * p) <= value * scale < (lo + 1) * (xtal * p)
      by the scale expresses it in programmed units and steps. */
  lemma StepsToUnits(value: real, xtal: real, p: real, lo: real, hi: real, scale: real)
    requires scale > 0.0 && hi == lo + 1.0
    requires lo * (xtal * p) <= value * scale < hi * (xtal * p)
    ensures xtal / scale * lo * p <= value < xtal / scale * lo * p + xtal / scale * p
  {
    var unit := xtal / scale * p;
    assert unit * scale == xtal * p;
    var got := lo * unit;
    assert got * scale == lo * (xtal * p);
    assert hi * (xtal * p) == got * scale + unit * scale;
    CancelLe(got, value, scale);
    CancelLt(value, got + unit, scale);
  }

  lemma DivMul(a: real, b: real)
    requires b != 0.0
    ensures a / b * b == a
  {
  }

  /** floor(log2(rate * 2^20 / xtal)) is defined and fits the shift. */
  predicate DrateEncodable(drate: real, xtal: real)
  {
    xtal > 0.0 && Log2Domain(drate * Two20 / xtal)
  }

  /** floor(log2(dev * 2^14 / xtal)) is defined and fits the shift. */
  predicate DeviationEncodable(deviat: real, xtal: real)
  {
    xtal > 0.0 && Log2Domain(deviat * Two14 / xtal)
  }

  /** The frequency deviation: the data rate times the modulation index. */
  function DeviationFor(drate: real, modIndex: real): (deviat: real)
    ensures drate != 0.0 ==> deviat / drate == modIndex
    ensures 0.0 <= drate && 0.0 <= modIndex ==> 0.0 <= deviat
  {
    drate * modIndex
  }

  /** The programmed rate is the requested one rounded down to a whole
      mantissa step. */
  predicate RateBracket(drate: real, xtal: real, m: int, e: nat)
  {
    RadioGetRate(xtal, m, e) <= drate < RadioGetRate(xtal, m, e) + DrateStep(xtal, e)
  }

  /** The programmed deviation is the requested one rounded down to a step. */
  predicate DeviationBracket(deviat: real, xtal: real, m: int, e: nat)
  {
    DeviationOf(xtal, m, e) <= deviat < DeviationOf(xtal, m, e) + DeviatStep(xtal, e)
  }

  /** DRATE_E before its 4-bit mask, and DRATE_M. The mantissa lies in 0..255
      and the rate the pair programs is the requested rate rounded down to a
      whole mantissa step. */
  function EncodeDrate(drate: real, xtal: real): (r: ExpMant)
    requires DrateEncodable(drate, xtal)
    ensures r.e <= 30 && 0 <= r.m < 256
    ensures RateBracket(drate, xtal, r.m, r.e)
  {
    var x := drate * Two20 / xtal;
    var e := Log2Floor(x);
    var p := Pow2(e) as real;
    var v := drate * Two28 / (xtal * p);
    var m := Trunc(v - 256.0);
    ExponentBound(x, e);
    DrateMantissa(drate, xtal, x, p, v, m);
    RadioGetRateWith(xtal, m, e, p);
    ExpMant(e, m)
  }

  /** DEVIATION_E before its 3-bit mask, and DEVIATION_M, which lies in 0..7;
      the programmed deviation is the requested one rounded down to a step. */
  function EncodeDeviation(deviat: real, xtal: real): (r: ExpMant)
    requires DeviationEncodable(deviat, xtal)
    ensures r.e <= 30 && 0 <= r.m < 8
    ensures DeviationBracket(deviat, xtal, r.m, r.e)
  {
    var x := deviat * Two14 / xtal;
    var e := Log2Floor(x);
    var p := Pow2(e) as real;
    var v := deviat * Two17 / (xtal * p);
    var m := Trunc(v - 8.0);
    ExponentBound(x, e);
    DeviationMantissa(deviat, xtal, x, p, v, m);
    DeviationOfWith(xtal, m, e, p);
    ExpMant(e, m)
  }

  /** The rate, bandwidth and deviation fields of the register record. */
  datatype RateWords = RateWords(
    chanbwE: Byte, chanbwM: Byte,
    drateE: Byte, drateM: Byte,
    deviatE: Byte, deviatM: Byte)

  /** What `get_rate_words` needs of its inputs to stay within defined C
      behaviour: both floor(log2 .) arguments in `Log2Domain`. */
  predicate RateEncodable(baseRate: real, skew: real, mod: Modulation, modIndex: real, xtal: real)
  {
    var drate := WorkingRate(baseRate, skew, mod);
    DrateEncodable(drate, xtal) && DeviationEncodable(DeviationFor(drate, modIndex), xtal)
  }

  /** DRATE_E masked to its 4 bits, and DRATE_M, computed at the unmasked
      exponent. While the exponent fits, the words program the requested rate
      rounded down to a step; past it, they program a rate 2^16 times smaller
      than the one the mantissa was computed for. */
  function DrateWords(drate: real, xtal: real): (w: (Byte, Byte))
    requires DrateEncodable(drate, xtal)
    ensures w.0 < 16
    ensures w.0 == EncodeDrate(drate, xtal).e % 16 && w.1 == EncodeDrate(drate, xtal).m
    ensures EncodeDrate(drate, xtal).e < 16 ==> RateBracket(drate, xtal, w.1, w.0)
    ensures EncodeDrate(drate, xtal).e >= 16 ==>
              RadioGetRate(xtal, w.1, w.0) * 65536.0 == RadioGetRate(xtal, EncodeDrate(drate, xtal).m, EncodeDrate(drate, xtal).e)
  {
    var dr := EncodeDrate(drate, xtal);
    if dr.e < 16 then
      (dr.e, dr.m)
    else
      DrateExponentMaskShrinks(xtal, dr.m, dr.e);
      (dr.e % 16, dr.m)
  }

  /** DEVIATION_E and DEVIATION_M masked to their 3 bits, the mantissa computed
      at the unmasked exponent. While the exponent fits, the words program the
      requested deviation rounded down to a step; past it, they program the
      deviation the mantissa was computed for divided by 2^(e - e % 8), the
      power the mask drops. */
  function DeviationWords(deviat: real, xtal: real): (w: (Byte, Byte))
    requires DeviationEncodable(deviat, xtal)
    ensures w.0 < 8 && w.1 < 8
    ensures w.0 == EncodeDeviation(deviat, xtal).e % 8 && w.1 == EncodeDeviation(deviat, xtal).m
    ensures EncodeDeviation(deviat, xtal).e < 8 ==> DeviationBracket(deviat, xtal, w.1, w.0)
    ensures EncodeDeviation(deviat, xtal).e >= 8 ==>
              ScaledDeviation(xtal, w.1, w.0, EncodeDeviation(deviat, xtal).e)
              == DeviationOf(xtal, EncodeDeviation(deviat, xtal).m, EncodeDeviation(deviat, xtal).e)
  {
    var dv := EncodeDeviation(deviat, xtal);
    if dv.e < 8 then
      (dv.e, dv.m)
    else
      DeviationExponentDrop(xtal, dv.m, dv.e, dv.e % 8);
      (dv.e % 8, dv.m)
  }

  /** `get_rate_words`. The mantissas are computed with the unmasked exponents;
      only afterwards are DRATE_E masked to 4 bits and DEVIATION_E to 3. The
      channel filter is the first one wider than Carson's bandwidth; while the
      exponents fit their fields, the programmed rate and deviation are the
      requested ones rounded down to a whole mantissa step. */
  function GetRateWords(baseRate: real, skew: real, mod: Modulation, modIndex: real, xtal: real): (w: RateWords)
    requires RateEncodable(baseRate, skew, mod, modIndex, xtal)
    ensures w.chanbwE < 4 && w.chanbwM < 4
    ensures w.drateE < 16 && w.deviatE < 8 && w.deviatM < 8
    ensures var drate := WorkingRate(baseRate, skew, mod);
            (w.drateE, w.drateM) == DrateWords(drate, xtal)
    ensures var deviat := DeviationFor(WorkingRate(baseRate, skew, mod), modIndex);
            (w.deviatE, w.deviatM) == DeviationWords(deviat, xtal)
    ensures var drate := WorkingRate(baseRate, skew, mod);
            4 * w.chanbwE + w.chanbwM == ChanbwIndex(CarsonBandwidth(drate, DeviationFor(drate, modIndex)))
    ensures var drate := WorkingRate(baseRate, skew, mod);
            EncodeDrate(drate, xtal).e < 16 ==> RateBracket(drate, xtal, w.drateM, w.drateE)
    ensures var deviat := DeviationFor(WorkingRate(baseRate, skew, mod), modIndex);
            EncodeDeviation(deviat, xtal).e < 8 ==> DeviationBracket(deviat, xtal, w.deviatM, w.deviatE)
  {
    var drate := WorkingRate(baseRate, skew, mod);
    var deviat := DeviationFor(drate, modIndex);
    var bw := ChanbwIndex(CarsonBandwidth(drate, deviat));
    var dr := DrateWords(drate, xtal);
    var dv := DeviationWords(deviat, xtal);
    RateWords(bw / 4, bw % 4, dr.0, dr.1, dv.0, dv.1)
  }

  /** One mantissa step is at most 1/256 of the programmed rate: the rounding
      error of the DRATE encoding is below 0.4 %. */
  lemma DrateStepRelative(xtal: real, m: Byte, e: nat)
    requires xtal > 0.0
    ensures 256.0 * DrateStep(xtal, e) <= RadioGetRate(xtal, m, e)
  {
    var u := xtal / Two28 * Pow2(e) as real;
    assert u >= 0.0;
    MulLe(256.0, 256.0 + m as real, u);
    assert RadioGetRate(xtal, m, e) == (256.0 + m as real) * u;
  }

  /** One DEVIATION_M step is at most 1/8 of the programmed deviation. */
  lemma DeviatStepRelative(xtal: real, m: Byte, e: nat)
    requires xtal > 0.0
    ensures 8.0 * DeviatStep(xtal, e) <= DeviationOf(xtal, m, e)
  {
    var u := xtal / Two17 * Pow2(e) as real;
    assert u >= 0.0;
    MulLe(8.0, 8.0 + m as real, u);
    assert DeviationOf(xtal, m, e) == (8.0 + m as real) * u;
  }

  /** Masking DRATE_E to 4 bits divides the programmed rate by 2^16 when the
      exponent needed is 16 or more: rates of at least xtal / 16 are not
      representable, and the code does not reject them. */
  lemma DrateExponentMaskShrinks(xtal: real, m: Byte, e: nat)
    requires xtal > 0.0 && 16 <= e < 32
    ensures RadioGetRate(xtal, m, e % 16) * 65536.0 == RadioGetRate(xtal, m, e)
  {
    MaskedPow2(e);
    var lo := Pow2(e % 16) as real;
    var hi := Pow2(e) as real;
    RealScale(Pow2(e), Pow2(e % 16));
    RateScales(xtal, m, e % 16, e, lo, hi);
  }

  lemma RealScale(a: int, b: int)
    requires a == b * 0x1_0000
    ensures a as real == b as real * 65536.0
  {
  }

  /** Exponents whose powers differ by 2^16 give rates that differ by 2^16. */
  lemma RateScales(xtal: real, m: int, k: nat, e: nat, lo: real, hi: real)
    requires lo == Pow2(k) as real && hi == Pow2(e) as real && hi == lo * 65536.0
    ensures RadioGetRate(xtal, m, k) * 65536.0 == RadioGetRate(xtal, m, e)
  {
    ScaleProduct(RadioGetRate(xtal, m, k), RadioGetRate(xtal, m, e), RateUnit(xtal, m), lo, hi, 65536.0);
  }

  lemma ScaleProduct(a: real, b: real, c: real, lo: real, hi: real, f: real)
    requires a == c * lo && b == c * hi && hi == lo * f
    ensures a * f == b
  {
  }

  lemma MaskedPow2(e: nat)
    requires 16 <= e < 32
    ensures Pow2(e) == Pow2(e % 16) * 0x1_0000
  {
    var k := e - 16;
    assert e % 16 == k;
    Pow2Add(k, 16);
    Pow2Values();
  }


  /** Lowering DEVIATION_E from e to k divides the programmed deviation by
      2^(e - k); the 3-bit mask lowers it to e % 8. */
  lemma {:induction false} DeviationExponentDrop(xtal: real, m: int, e: nat, k: nat)
    requires k <= e
    ensures ScaledDeviation(xtal, m, k, e) == DeviationOf(xtal, m, e)
    decreases e - k
  {
    if k < e {
      DeviationExponentDrop(xtal, m, e - 1, k);
      DeviationDoubles(xtal, m, e);
      assert Pow2(e - k) == 2 * Pow2(e - 1 - k);
    }
  }

  /** The deviation programmed at exponent k, scaled back by the factor
      2^(e - k) that lowering the exponent from e to k drops. */
  function ScaledDeviation(xtal: real, m: int, k: nat, e: nat): real
    requires k <= e
  {
    DeviationOf(xtal, m, k) * Pow2(e - k) as real
  }

  /** Each step of DEVIATION_E doubles the programmed deviation. */
  lemma DeviationDoubles(xtal: real, m: int, e: nat)
    requires e >= 1
    ensures DeviationOf(xtal, m, e) == 2.0 * DeviationOf(xtal, m, e - 1)
  {
    assert Pow2(e) == 2 * Pow2(e - 1);
  }

  /** A 500 kHz deviation at a 26 MHz crystal needs DEVIATION_E = 8, which the
      3-bit mask turns into 0: the bridge is programmed 256 times lower. */
  lemma DeviationMaskExample()
    ensures DeviationEncodable(500000.0, 26000000.0)
    ensures EncodeDeviation(500000.0, 26000000.0).e == 8
    ensures DeviationWords(500000.0, 26000000.0).0 == 0
  {
    var x := 500000.0 * Two14 / 26000000.0;
    Pow2Values();
    assert Pow2(8) as real <= x < 2.0 * Pow2(8) as real;
    Log2FloorUnique(x, 8);
  }
}

=== FILE: encoder.dfy ===
/** The register-parameter encoder of tnc1101/radio.c: the frequency and
    intermediate-frequency words, the assembly of the parameter record sent to
    the MSP430 bridge (`init_radio_parms`) and the byte time derived back from
    it (`radio_get_byte_time`). */
module RegisterEncoder {
  import opened Numeric
  import opened Modulation
  import opened ChannelBandwidth
  import opened DataRate

  /** F_XTAL_MHZ: the crystal in whole MHz. Its value lives in a header that is
      not part of this model; the bound keeps `F_XTAL_MHZ * 1000000` within a
      signed 32-bit `int`, and so within the `uint32_t` that `get_if_word`
      stores it in, whatever the macro's type. */
  type XtalMhz = n: int | 1 <= n <= 2147 witness 26

  function XtalHz(mhz: XtalMhz): (hz: nat)
    ensures 1000000 <= hz < 0x8000_0000 && hz < U32Modulus
  {
    mhz * 1000000
  }

  /** `get_freq_word`: freq * 2^16 / xtal on 64 bits, cast to `uint32_t`.
      The word is floor(freq * 2^16 / xtal): the cast never truncates. */
  function FreqWord(freqHz: U32, mhz: XtalMhz): (w: U32)
    ensures w * XtalHz(mhz) <= freqHz * 0x1_0000 < w * XtalHz(mhz) + XtalHz(mhz)
    ensures freqHz < 256 * XtalHz(mhz) ==> w < 0x100_0000
  {
    var xtal := XtalHz(mhz);
    var n := freqHz * 0x1_0000;
    var q := n / xtal;
    DivBracket(n, xtal, q);
    QuotientBelow(n, xtal, q, U32Modulus);
    WordBelow(freqHz, xtal, q);
    SmallModulus(q, U32Modulus);
    q % U32Modulus
  }

  lemma SmallModulus(q: int, m: int)
    requires 0 <= q < m
    ensures q % m == q
  {
  }

  /** The quotient of a 48-bit dividend by at least 10^6 fits in 32 bits. */
  lemma QuotientBelow(n: int, d: int, q: int, k: int)
    requires d >= 1000000 && k == U32Modulus && 0 <= n < U32Modulus * 0x1_0000
    requires q * d <= n
    ensures q < k
  {
    MulMonoLe(1000000, d, k);
    MulCancelLt(q, k, d);
  }

  /** Below 256 crystal periods the word fits the 24 bits of FREQ[23..0]. */
  lemma WordBelow(f: int, d: int, q: int)
    requires d > 0 && q * d <= f * 0x1_0000
    ensures f < 256 * d ==> q < 0x100_0000
  {
    if f < 256 * d {
      MulCancelLt(q, 0x100_0000, d);
    }
  }

  /** A higher frequency never gives a lower FREQ word. */
  lemma FreqWordMonotone(f1: U32, f2: U32, mhz: XtalMhz)
    requires f1 <= f2
    ensures FreqWord(f1, mhz) <= FreqWord(f2, mhz)
  {
    var xtal := XtalHz(mhz);
    var w1, w2 := FreqWord(f1, mhz), FreqWord(f2, mhz);
    MulSucc(w2, xtal);
    MulCancelLt(w1, w2 + 1, xtal);
  }

  /** Any word with the floor bracket is the FREQ word: the word is exactly
      floor(freq * 2^16 / xtal). */
  lemma FreqWordIsFloor(freqHz: U32, mhz: XtalMhz, w: int)
    requires w * XtalHz(mhz) <= freqHz * 0x1_0000 < w * XtalHz(mhz) + XtalHz(mhz)
    ensures FreqWord(freqHz, mhz) == w
  {
    var xtal := XtalHz(mhz);
    var n := freqHz * 0x1_0000;
    DivFromBracket(n, xtal, w);
    DivBracket(n, xtal, n / xtal);
    QuotientBelow(n, xtal, n / xtal, U32Modulus);
  }

  /** `get_if_word`: IF * 2^10 in `uint32_t` (so it wraps), divided by the
      crystal, cast to `uint8_t`, then reduced modulo 32. */
  function IfWord(ifHz: U32, mhz: XtalMhz): (w: Byte)
    ensures w < 32
    ensures ifHz * 1024 < U32Modulus ==> w == (ifHz * 1024 / XtalHz(mhz)) % 32
  {
    var xtal := XtalHz(mhz);
    var n := (ifHz * 1024) % U32Modulus;
    var q := n / xtal;
    DivBracket(n, xtal, q);
    ModNoWrap(ifHz * 1024, U32Modulus);
    ByteThenMod32(q);
    (q % 256) % 32
  }

  lemma ModNoWrap(x: int, m: int)
    requires x >= 0 && m > 0
    ensures x < m ==> x % m == x
  {
  }

  /** Reducing modulo 256 (the `uint8_t` cast) before reducing modulo 32
      changes nothing. */
  lemma ByteThenMod32(q: int)
    requires q >= 0
    ensures (q % 256) % 32 == q % 32
  {
    var a := q / 256;
    var r := q % 256;
    assert q == 256 * a + r;
    assert 256 * a == 32 * (8 * a);
  }

  /** While IF * 2^10 fits in 32 bits and stays below 32 crystal periods, the
      IF word is exactly floor(IF * 2^10 / xtal): neither the wrap nor the
      modulo 32 takes effect. */
  lemma IfWordIsFloor(ifHz: U32, mhz: XtalMhz)
    requires ifHz * 1024 < U32Modulus && ifHz * 1024 < 32 * XtalHz(mhz)
    ensures IfWord(ifHz, mhz) * XtalHz(mhz) <= ifHz * 1024 < IfWord(ifHz, mhz) * XtalHz(mhz) + XtalHz(mhz)
  {
    var xtal := XtalHz(mhz);
    var n := ifHz * 1024;
    var q := n / xtal;
    DivBracket(n, xtal, q);
    MulCancelLt(q, 32, xtal);
    SmallModulus(q, 32);
  }

  /** With a 26 MHz crystal an IF of 812500 Hz is exactly 32 steps of
      xtal / 2^10, and the modulo 32 turns it into the word 0. */
  lemma IfWordWrapsAt32Steps()
    ensures IfWord(812500, 26) == 0
  {
  }

  /** The sync-word detection mode the record selects; only 30-of-32 bits is used. */
  datatype SyncMode = Sync30Of32

  /** PKTLEN_FIXED / PKTLEN_VARIABLE. */
  datatype PacketLengthMode = PktLenFixed | PktLenVariable

  /** The parts of `arguments_t` the encoder reads. */
  datatype LinkConfig = LinkConfig(
    freqHz: U32,
    ifFreqHz: U32,
    modulation: Modulation,
    rate: nat,
    rateSkew: real,
    modulationIndex: real,
    packetLength: Byte,
    variableLength: bool,
    fec: bool,
    whitening: bool,
    preamble: nat)

  /** The constants and tables the encoder takes from headers: the crystal,
      `rate_values` and `nb_preamble_bytes`. */
  datatype Board = Board(xtalMhz: XtalMhz, rateValues: seq<real>, nbPreambleBytes: seq<Byte>)

  /** `msp430_radio_parms_t`, field by field. */
  datatype RadioParms = RadioParms(
    freqWord: U32,
    ifWord: Byte,
    modWord: Byte,
    syncWord: SyncMode,
    chanspcM: Byte,
    chanspcE: Byte,
    chanbwE: Byte,
    chanbwM: Byte,
    drateE: Byte,
    drateM: Byte,
    deviatE: Byte,
    deviatM: Byte,
    fecWhitening: Byte,
    packetLength: Byte,
    packetConfig: PacketLengthMode,
    preambleWord: Byte)

  function XtalReal(board: Board): real
  {
    XtalHz(board.xtalMhz) as real
  }

  /** What `init_radio_parms` needs to stay within defined C behaviour: both
      table indexes in bounds and the rate words computable. */
  predicate Encodable(cfg: LinkConfig, board: Board)
  {
    && cfg.rate < |board.rateValues|
    && cfg.preamble < |board.nbPreambleBytes|
    && RateEncodable(board.rateValues[cfg.rate], cfg.rateSkew, cfg.modulation,
                     cfg.modulationIndex, XtalReal(board))
  }

  /** The working data rate of a configuration: table rate times skew,
      limited for 4-FSK. */
  function ConfigRate(cfg: LinkConfig, board: Board): real
    requires cfg.rate < |board.rateValues|
  {
    WorkingRate(board.rateValues[cfg.rate], cfg.rateSkew, cfg.modulation)
  }

  /** FEC in bit 0, whitening in bit 1. */
  function FecWhitening(fec: bool, whitening: bool): (b: Byte)
    ensures b < 4
    ensures b % 2 == 1 <==> fec
    ensures b / 2 == 1 <==> whitening
  {
    (if fec then 1 else 0) + 2 * (if whitening then 1 else 0)
  }

  /** `init_radio_parms`. */
  function InitRadioParms(cfg: LinkConfig, board: Board): (p: RadioParms)
    requires Encodable(cfg, board)
    ensures p.freqWord * XtalHz(board.xtalMhz) <= cfg.freqHz * 0x1_0000
            < p.freqWord * XtalHz(board.xtalMhz) + XtalHz(board.xtalMhz)
    ensures p.ifWord == IfWord(cfg.ifFreqHz, board.xtalMhz) && p.ifWord < 32
    ensures cfg.modulation != ModNone ==> ModCode(p.modWord) == cfg.modulation
    ensures cfg.modulation == ModNone ==> p.modWord == 0
    ensures p.chanspcM == 0 && p.chanspcE == 0
    ensures p.fecWhitening % 2 == 1 <==> cfg.fec
    ensures p.fecWhitening / 2 == 1 <==> cfg.whitening
    ensures p.packetLength == cfg.packetLength
    ensures p.packetConfig == PktLenVariable <==> cfg.variableLength
    ensures p.preambleWord == board.nbPreambleBytes[cfg.preamble]
    ensures 4 * p.chanbwE + p.chanbwM
            == ChanbwIndex(CarsonBandwidth(ConfigRate(cfg, board), DeviationFor(ConfigRate(cfg, board), cfg.modulationIndex)))
    ensures (p.drateE, p.drateM) == DrateWords(ConfigRate(cfg, board), XtalReal(board))
    ensures (p.deviatE, p.deviatM)
            == DeviationWords(DeviationFor(ConfigRate(cfg, board), cfg.modulationIndex), XtalReal(board))
    ensures p.drateE < 16 && p.deviatE < 8 && p.deviatM < 8
  {
    var w := GetRateWords(board.rateValues[cfg.rate], cfg.rateSkew, cfg.modulation,
                          cfg.modulationIndex, XtalReal(board));
    RadioParms(
      FreqWord(cfg.freqHz, board.xtalMhz),
      IfWord(cfg.ifFreqHz, board.xtalMhz),
      ModWord(cfg.modulation),
      Sync30Of32,
      0, 0,
      w.chanbwE, w.chanbwM,
      w.drateE, w.drateM,
      w.deviatE, w.deviatM,
      FecWhitening(cfg.fec, cfg.whitening),
      cfg.packetLength,
      if cfg.variableLength then PktLenVariable else PktLenFixed,
      board.nbPreambleBytes[cfg.preamble])
  }

  /** `radio_get_rate` applied to a parameter record: positive, and at least
      256 DRATE_M steps, so one step is at most 1/256 of the rate. */
  function ParmsRate(p: RadioParms, xtal: real): (rate: real)
    ensures xtal > 0.0 ==> rate > 0.0 && 256.0 * DrateStep(xtal, p.drateE) <= rate
  {
    if xtal > 0.0 then
      DrateStepRelative(xtal, p.drateM, p.drateE);
      RadioGetRate(xtal, p.drateM, p.drateE)
    else
      RadioGetRate(xtal, p.drateM, p.drateE)
  }

  /** The rate the bridge will run at is the requested working rate rounded
      down to one DRATE_M step, as long as the exponent fits its 4 bits. */
  lemma InitRadioParmsRate(cfg: LinkConfig, board: Board)
    requires Encodable(cfg, board)
    requires EncodeDrate(ConfigRate(cfg, board), XtalReal(board)).e < 16
    ensures var p := InitRadioParms(cfg, board);
            ParmsRate(p, XtalReal(board)) <= ConfigRate(cfg, board)
              < ParmsRate(p, XtalReal(board)) + DrateStep(XtalReal(board), p.drateE)
    ensures var p := InitRadioParms(cfg, board);
            ConfigRate(cfg, board) - ParmsRate(p, XtalReal(board)) < ParmsRate(p, XtalReal(board)) / 256.0
  {
  }

  /** `radio_get_byte_time`, in microseconds: 8e6 / rate, halved for 4-FSK,
      doubled when FEC is on. */
  function ByteTime(p: RadioParms, xtal: real): (t: real)
    requires xtal > 0.0
    ensures t > 0.0
    ensures t * ParmsRate(p, xtal) * (if ModCode(p.modWord) == Fsk4 then 2.0 else 1.0)
            == 8000000.0 * (if p.fecWhitening % 2 == 1 then 2.0 else 1.0)
  {
    var rate := ParmsRate(p, xtal);
    var base := 8000000.0 / rate;
    var halved := if ModCode(p.modWord) == Fsk4 then base / 2.0 else base;
    if p.fecWhitening % 2 == 1 then halved * 2.0 else halved
  }
}

=== FILE: modulation.dfy ===
/** The modulation format and its 3-bit MOD_FORMAT register word
    (tnc1101/radio.c, get_mod_word and get_mod_code). */
module Modulation {
  import opened Numeric

  /** `radio_modulation_t`; `ModNone` is RADIO_MOD_NONE, the "no format" sentinel. */
  datatype Modulation = ModNone | Ook | Fsk2 | Fsk4 | Msk | Gfsk

  /** The register words that name a modulation format. */
  const ModWords: set<Byte> := {0, 1, 3, 4, 7}

  /** Modulation to MOD_FORMAT word. Anything without an entry, `ModNone`
      included, silently becomes 0, the 2-FSK word. */
  function ModWord(m: Modulation): (w: Byte)
    ensures w in ModWords && w < 8
    ensures w == 0 <==> m == Fsk2 || m == ModNone
  {
    match m
    case Ook => 3
    case Fsk2 => 0
    case Fsk4 => 4
    case Msk => 7
    case Gfsk => 1
    case ModNone => 0
  }

  /** MOD_FORMAT word to modulation. A word without an entry decodes to the
      explicit `ModNone` sentinel rather than to a default format. */
  function ModCode(w: Byte): (m: Modulation)
    ensures m == ModNone <==> w !in ModWords
  {
    if w == 3 then Ook
    else if w == 0 then Fsk2
    else if w == 4 then Fsk4
    else if w == 7 then Msk
    else if w == 1 then Gfsk
    else ModNone
  }

  /** Every real modulation format survives encode then decode. */
  lemma ModulationRoundTrip(m: Modulation)
    requires m != ModNone
    ensures ModCode(ModWord(m)) == m
  {
  }

  /** Every word of the table survives decode then encode. */
  lemma ModWordRoundTrip(w: Byte)
    requires w in ModWords
    ensures ModWord(ModCode(w)) == w
  {
  }

  /** The two directions disagree on the sentinel: encoding `ModNone` gives the
      2-FSK word, which decodes to 2-FSK and not back to `ModNone`. */
  lemma ModNoneIsNotRoundTripped()
    ensures ModWord(ModNone) == 0
    ensures ModCode(ModWord(ModNone)) == Fsk2
  {
  }
}

=== FILE: numeric.dfy ===
/** Fixed-width views of the C integer types used by the radio link code, powers
    of two, and the two real-number operations the register encoder relies on:
    floor(log2 x) and C's truncating float-to-integer conversion. */
module Numeric {

  /** C `uint8_t`. */
  type Byte = b: int | 0 <= b < 256

  /** C `uint32_t`. */
  type U32 = n: int | 0 <= n < 0x1_0000_0000

  const U32Modulus: int := 0x1_0000_0000

  /** 2^n, the value of C's `1 << n` while it does not overflow. */
  function Pow2(n: nat): (p: nat)
    ensures p >= 1
  {
    if n == 0 then 1 else 2 * Pow2(n - 1)
  }

  lemma {:induction false} Pow2Add(a: nat, b: nat)
    ensures Pow2(a + b) == Pow2(a) * Pow2(b)
    decreases b
  {
    if b > 0 {
      Pow2Add(a, b - 1);
      assert Pow2(a + b) == 2 * Pow2(a + b - 1);
    }
  }

  lemma {:induction false} Pow2Monotone(a: nat, b: nat)
    requires a <= b
    ensures Pow2(a) <= Pow2(b)
    decreases b - a
  {
    if a < b {
      Pow2Monotone(a, b - 1);
    }
  }

  /** Comparing powers of two compares their exponents. */
  lemma Pow2Inverse(a: nat, b: nat)
    requires Pow2(a) < Pow2(b)
    ensures a < b
  {
    if a >= b {
      Pow2Monotone(b, a);
    }
  }

  lemma Pow2Values()
    ensures Pow2(8) == 0x100
    ensures Pow2(16) == 0x1_0000
    ensures Pow2(31) == 0x8000_0000
  {
    Pow2Add(8, 8);
    Pow2Add(16, 8);
    Pow2Add(24, 7);
  }

  /** floor(log2 x) for x >= 1, pinned down by the bracket 2^e <= x < 2^(e+1). */
  function Log2Floor(x: real): (e: nat)
    requires x >= 1.0
    ensures Pow2(e) as real <= x < 2.0 * Pow2(e) as real
    decreases x.Floor
  {
    if x < 2.0 then 0 else 1 + Log2Floor(x / 2.0)
  }

  /** The bracket determines the exponent: no other e satisfies it. */
  lemma Log2FloorUnique(x: real, e: nat)
    requires Pow2(e) as real <= x < 2.0 * Pow2(e) as real
    ensures Log2Floor(x) == e
  {
    var k := Log2Floor(x);
    Pow2Inverse(k, e + 1);
    Pow2Inverse(e, k + 1);
  }

  lemma MulLe(a: real, b: real, c: real)
    requires a <= b && c > 0.0
    ensures a * c <= b * c
  {
  }

  lemma MulLt(a: real, b: real, c: real)
    requires a < b && c > 0.0
    ensures a * c < b * c
  {
  }

  lemma CancelLe(a: real, b: real, c: real)
    requires a * c <= b * c && c > 0.0
    ensures a <= b
  {
  }

  lemma CancelLt(a: real, b: real, c: real)
    requires a * c < b * c && c > 0.0
    ensures a < b
  {
  }

  /** A bracket on a quotient is a bracket on the dividend. */
  lemma DivBounds(a: real, b: real, lo: real, hi: real)
    requires b > 0.0 && lo <= a / b < hi
    ensures lo * b <= a < hi * b
  {
    MulLe(lo, a / b, b);
    MulLt(a / b, hi, b);
  }

  /** C's conversion of a floating value to an integer type: truncation toward zero. */
  function Trunc(v: real): (t: int)
    ensures 0.0 <= v ==> t as real <= v < t as real + 1.0
    ensures v < 0.0 ==> t as real - 1.0 < v <= t as real
  {
    if v >= 0.0 then v.Floor else -((-v).Floor)
  }

  /** Euclidean division brackets the dividend between two multiples of the divisor. */
  lemma DivBracket(n: int, d: int, q: int)
    requires d > 0 && q == n / d
    ensures q * d <= n < q * d + d
    ensures n >= 0 ==> q >= 0
  {
  }

  /** The bracket determines the quotient. */
  lemma DivFromBracket(n: int, d: int, q: int)
    requires d > 0 && q * d <= n < q * d + d
    ensures n / d == q
  {
    var k := n / d;
    DivBracket(n, d, k);
    MulSucc(q, d);
    MulSucc(k, d);
    MulCancelLt(k, q + 1, d);
    MulCancelLt(q, k + 1, d);
  }

  lemma MulSucc(q: int, d: int)
    ensures (q + 1) * d == q * d + d
  {
  }

  lemma MulCancelLt(a: int, b: int, d: int)
    requires d > 0 && a * d < b * d
    ensures a < b
  {
  }

  lemma MulMonoLe(a: int, b: int, d: int)
    requires d >= 0 && a <= b
    ensures a * d <= b * d
  {
  }

  /** A quotient and remainder pair that reconstructs n is the Euclidean one. */
  lemma DivModUnique(n: int, d: int, q: int, r: int)
    requires d > 0 && 0 <= r < d && n == q * d + r
    ensures n % d == r
  {
    DivFromBracket(n, d, q);
  }

  /** The remainder modulo 2w splits into bit w and the remainder modulo w. */
  lemma ModStep(b: int, w: int)
    requires 0 <= b && w > 0
    ensures b % (2 * w) == w * ((b / w) % 2) + b % w
  {
    var q := b / w;
    var r := b % w;
    assert b == q * w + r;
    var h := q / 2;
    var s := q % 2;
    assert q == 2 * h + s;
    assert b == h * (2 * w) + (s * w + r);
    assert 0 <= s * w + r < 2 * w;
    DivModUnique(b, 2 * w, h, s * w + r);
  }

  /** A byte is the weighted sum of its eight bits, bit w being (b / w) % 2. */
  lemma ByteBits(b: Byte)
    ensures b == 128 * ((b / 128) % 2) + 64 * ((b / 64) % 2) + 32 * ((b / 32) % 2) + 16 * ((b / 16) % 2)
               + 8 * ((b / 8) % 2) + 4 * ((b / 4) % 2) + 2 * ((b / 2) % 2) + b % 2
  {
    HighBits(b);
    LowBits(b);
    ByteMod(b);
    JoinBits(b, b % 256, b % 16, (b / 128) % 2, (b / 64) % 2, (b / 32) % 2, (b / 16) % 2,
             (b / 8) % 2, (b / 4) % 2, (b / 2) % 2, b % 2);
  }

  lemma ByteMod(b: Byte)
    ensures b % 256 == b
  {
  }

  lemma JoinBits(b: int, m256: int, m16: int, t7: int, t6: int, t5: int, t4: int, t3: int, t2: int, t1: int, t0: int)
    requires b == m256 && m256 == 128 * t7 + 64 * t6 + 32 * t5 + 16 * t4 + m16
    requires m16 == 8 * t3 + 4 * t2 + 2 * t1 + t0
    ensures b == 128 * t7 + 64 * t6 + 32 * t5 + 16 * t4 + 8 * t3 + 4 * t2 + 2 * t1 + t0
  {
  }

  lemma HighBits(b: int)
    requires 0 <= b
    ensures b % 256 == 128 * ((b / 128) % 2) + 64 * ((b / 64) % 2) + 32 * ((b / 32) % 2) + 16 * ((b / 16) % 2)
                       + b % 16
  {
    ModStep(b, 128);
    ModStep(b, 64);
    ModStep(b, 32);
    ModStep(b, 16);
  }

  lemma LowBits(b: int)
    requires 0 <= b
    ensures b % 16 == 8 * ((b / 8) % 2) + 4 * ((b / 4) % 2) + 2 * ((b / 2) % 2) + b % 2
  {
    ModStep(b, 8);
    ModStep(b, 4);
    ModStep(b, 2);
  }
}

=== FILE: status.dfy ===
/** Decoding of the radio status reply (tnc1101/radio.c, print_radio_status,
    state_names and rssi_dbm): twelve register bytes split into the fields the
    status report shows. */
module RadioStatus {
  import opened Numeric

  /** `state_names`: the CC1101 MARCSTATE names, indexed by the 5-bit state code. */
  const StateNames: seq<string> := [
    "SLEEP", "IDLE", "XOFF", "VCOON_MC", "REGON_MC", "MANCAL", "VCOON", "REGON",
    "STARTCAL", "BWBOOST", "FS_LOCK", "IFADCON", "ENDCAL", "RX", "RX_END", "RX_RST",
    "TXRX_SWITCH", "RXFIFO_OVERFLOW", "FSTXON", "TX", "TX_END", "RXTX_SWITCH",
    "TXFIFO_UNDERFLOW",
    "undefined", "undefined", "undefined", "undefined", "undefined", "undefined",
    "undefined", "undefined", "undefined"
  ]

  /** The name the report prints for a state register: its low five bits
      index the table, so every register value has a name, and it is
      "undefined" exactly for codes 23 to 31. */
  function StateName(reg: Byte): (name: string)
    ensures name in StateNames
    ensures name == "undefined" <==> reg % 32 >= 23
  {
    StateNames[reg % 32]
  }

  /** `rssi_dbm`: the RSSI register is a two's-complement count of half dB
      above -74 dBm. */
  function RssiDbm(raw: Byte): (dbm: real)
    ensures -138.0 <= dbm <= -10.5
    ensures raw < 128 <==> dbm >= -74.0
  {
    if raw < 128 then raw as real / 2.0 - 74.0
    else (raw - 256) as real / 2.0 - 74.0
  }

  /** The readings `rssi_dbm` can produce: half-dB steps from -138 to -10.5 dBm. */
  predicate RssiReading(dbm: real)
  {
    -138.0 <= dbm <= -10.5 && ((dbm + 74.0) * 2.0).Floor as real == (dbm + 74.0) * 2.0
  }

  /** The inverse of `rssi_dbm`: back to the half-dB count, then to its byte. */
  function RssiRaw(dbm: real): (raw: Byte)
  {
    ((dbm + 74.0) * 2.0).Floor % 256
  }

  /** Every register value survives `rssi_dbm` and back. */
  lemma RssiRoundTrip(raw: Byte)
    ensures RssiReading(RssiDbm(raw))
    ensures RssiRaw(RssiDbm(raw)) == raw
  {
    if raw < 128 {
      assert (RssiDbm(raw) + 74.0) * 2.0 == raw as real;
    } else {
      assert (RssiDbm(raw) + 74.0) * 2.0 == (raw - 256) as real;
    }
  }

  /** Every reading survives the inverse and `rssi_dbm` again. */
  lemma RssiReadingRoundTrip(dbm: real)
    requires RssiReading(dbm)
    ensures RssiDbm(RssiRaw(dbm)) == dbm
  {
    var k := ((dbm + 74.0) * 2.0).Floor;
    assert -128 <= k <= 127;
    if k < 0 {
      assert RssiRaw(dbm) == k + 256;
    } else {
      assert RssiRaw(dbm) == k;
    }
  }

  /** The four reference points: the two ends of each half of the byte range. */
  lemma RssiExamples()
    ensures RssiDbm(0) == -74.0
    ensures RssiDbm(127) == -10.5
    ensures RssiDbm(128) == -138.0
    ensures RssiDbm(255) == -74.5
  {
  }

  /** Bit `weight` (a power of two) of a register byte: `(b & weight) != 0`. */
  function Bit(b: Byte, weight: nat): bool
    requires weight in {1, 2, 4, 8, 16, 32, 64, 128}
  {
    (b / weight) % 2 == 1
  }

  /** A flag as a 0/1 digit. */
  function Digit(b: bool): nat
  {
    if b then 1 else 0
  }

  /** A flag placed at bit `weight`. */
  function Flag(b: bool, weight: nat): nat
  {
    weight * Digit(b)
  }

  /** A register holding a flag in bit 7 over a 7-bit count: LQI with CRC OK,
      TXBYTES with underflow, RXBYTES with overflow. */
  datatype FlaggedCount = FlaggedCount(flag: bool, count: nat)

  function DecodeFlagged(b: Byte): (f: FlaggedCount)
    ensures f.count < 128
    ensures f.flag <==> b >= 128
  {
    FlaggedCount(Bit(b, 128), b % 128)
  }

  function EncodeFlagged(f: FlaggedCount): (b: Byte)
    requires f.count < 128
  {
    Flag(f.flag, 128) + f.count
  }

  lemma FlaggedRoundTrip(b: Byte)
    ensures EncodeFlagged(DecodeFlagged(b)) == b
  {
  }

  lemma FlaggedRoundTripBack(f: FlaggedCount)
    requires f.count < 128
    ensures DecodeFlagged(EncodeFlagged(f)) == f
  {
  }

  /** The PKTSTATUS bits the report shows: bits 6, 5, 4, 3, 2 and 0. */
  datatype PacketStatus = PacketStatus(
    carrierSense: bool,
    preambleQualityReached: bool,
    clearChannel: bool,
    startOfFrame: bool,
    gdo2: bool,
    gdo0: bool)

  /** The six flags the report prints. Only bits 7 and 1 are dropped: the
      flags rebuild the byte with those two bits cleared. */
  function DecodePacketStatus(b: Byte): (p: PacketStatus)
    ensures EncodePacketStatus(p) == b - Flag(Bit(b, 128), 128) - Flag(Bit(b, 2), 2)
    ensures !Bit(b, 128) && !Bit(b, 2) ==> EncodePacketStatus(p) == b
  {
    ShownBitsRebuild(b);
    PacketStatus(Bit(b, 64), Bit(b, 32), Bit(b, 16), Bit(b, 8), Bit(b, 4), Bit(b, 1))
  }

  /** The PKTSTATUS byte with the six shown bits set and bits 7 and 1 clear. */
  function EncodePacketStatus(p: PacketStatus): (b: Byte)
  {
    Flag(p.carrierSense, 64) + Flag(p.preambleQualityReached, 32) + Flag(p.clearChannel, 16)
      + Flag(p.startOfFrame, 8) + Flag(p.gdo2, 4) + Flag(p.gdo0, 1)
  }

  lemma PacketStatusRoundTrip(p: PacketStatus)
    ensures DecodePacketStatus(EncodePacketStatus(p)) == p
    ensures !Bit(EncodePacketStatus(p), 128) && !Bit(EncodePacketStatus(p), 2)
  {
    var b := EncodePacketStatus(p);
    EncodedDigits(p);
    DigitBit(b, 64, p.carrierSense);
    DigitBit(b, 32, p.preambleQualityReached);
    DigitBit(b, 16, p.clearChannel);
    DigitBit(b, 8, p.startOfFrame);
    DigitBit(b, 4, p.gdo2);
    DigitBit(b, 1, p.gdo0);
  }

  /** Each shown bit of the encoded byte is the digit of its flag. */
  lemma EncodedDigits(p: PacketStatus)
    ensures var b := EncodePacketStatus(p);
            && (b / 128) % 2 == 0 && (b / 64) % 2 == Digit(p.carrierSense)
            && (b / 32) % 2 == Digit(p.preambleQualityReached) && (b / 16) % 2 == Digit(p.clearChannel)
            && (b / 8) % 2 == Digit(p.startOfFrame) && (b / 4) % 2 == Digit(p.gdo2)
            && (b / 2) % 2 == 0 && b % 2 == Digit(p.gdo0)
  {
    PacketStatusDigits(EncodePacketStatus(p), Digit(p.carrierSense), Digit(p.preambleQualityReached),
                       Digit(p.clearChannel), Digit(p.startOfFrame), Digit(p.gdo2), Digit(p.gdo0));
  }

  /** A PKTSTATUS byte with bits 7 and 1 clear is recovered from its six flags. */
  lemma PacketStatusRoundTripBack(b: Byte)
    requires !Bit(b, 128) && !Bit(b, 2)
    ensures EncodePacketStatus(DecodePacketStatus(b)) == b
  {
    ShownBitsRebuild(b);
  }

  /** A byte less its bits 7 and 1 is the sum of its six other bits. */
  lemma ShownBitsRebuild(b: Byte)
    ensures b - Flag(Bit(b, 128), 128) - Flag(Bit(b, 2), 2) == Flag(Bit(b, 64), 64) + Flag(Bit(b, 32), 32) + Flag(Bit(b, 16), 16)
               + Flag(Bit(b, 8), 8) + Flag(Bit(b, 4), 4) + Flag(Bit(b, 1), 1)
  {
    ByteBits(b);
    FlagOfBit(b, 128);
    FlagOfBit(b, 64);
    FlagOfBit(b, 32);
    FlagOfBit(b, 16);
    FlagOfBit(b, 8);
    FlagOfBit(b, 4);
    FlagOfBit(b, 2);
    FlagOfBit(b, 1);
    SumOfShownBits(b, (b / 128) % 2, (b / 64) % 2, (b / 32) % 2, (b / 16) % 2,
                   (b / 8) % 2, (b / 4) % 2, (b / 2) % 2, b % 2);
  }

  lemma SumOfShownBits(b: int, a7: int, a6: int, a5: int, a4: int, a3: int, a2: int, a1: int, a0: int)
    requires b == 128 * a7 + 64 * a6 + 32 * a5 + 16 * a4 + 8 * a3 + 4 * a2 + 2 * a1 + a0
    ensures b - 128 * a7 - 2 * a1 == 64 * a6 + 32 * a5 + 16 * a4 + 8 * a3 + 4 * a2 + a0
  {
  }

  lemma FlagOfBit(b: Byte, w: nat)
    requires w in {1, 2, 4, 8, 16, 32, 64, 128}
    ensures Flag(Bit(b, w), w) == w * ((b / w) % 2)
  {
  }

  /** Everything the status report shows, one field per printed value. */
  datatype StatusRecord = StatusRecord(
    partNumber: Byte,
    version: Byte,
    freqOffset: Byte,
    linkQuality: FlaggedCount,
    rssiDbm: real,
    fsmState: nat,
    worTime: nat,
    packetStatus: PacketStatus,
    vcoVcDac: Byte,
    txFifo: FlaggedCount,
    rxFifo: FlaggedCount)

  /** The records a reply can decode to: every field within its bit width and
      the RSSI on its half-dB grid. */
  predicate ValidStatus(s: StatusRecord)
  {
    && s.linkQuality.count < 128 && s.fsmState < 32 && s.worTime < 0x1_0000
    && s.txFifo.count < 128 && s.rxFifo.count < 128 && RssiReading(s.rssiDbm)
  }

  /** The register bytes whose every bit the report shows: all of them except
      the three high bits of the state register and bits 7 and 1 of the
      PKTSTATUS register, which are dropped. */
  predicate FullyShown(regs: seq<Byte>)
    requires |regs| == 12
  {
    regs[5] < 32 && !Bit(regs[8], 128) && !Bit(regs[8], 2)
  }

  /** The decoding of tnc1101/radio.c:474-494, `regs` being the twelve bytes
      after the reply header. */
  function DecodeStatus(regs: seq<Byte>): (s: StatusRecord)
    requires |regs| == 12
    ensures ValidStatus(s)
    ensures s.linkQuality.flag <==> regs[3] >= 128
    ensures s.fsmState == regs[5] % 32
    ensures s.worTime / 256 == regs[6] && s.worTime % 256 == regs[7]
    ensures s.txFifo.flag <==> regs[10] >= 128
    ensures s.rxFifo.flag <==> regs[11] >= 128
  {
    RssiRoundTrip(regs[4]);
    StatusRecord(
      regs[0],
      regs[1],
      regs[2],
      DecodeFlagged(regs[3]),
      RssiDbm(regs[4]),
      regs[5] % 32,
      regs[6] as int * 256 + regs[7] as int,
      DecodePacketStatus(regs[8]),
      regs[9],
      DecodeFlagged(regs[10]),
      DecodeFlagged(regs[11]))
  }

  /** The register bytes that decode to a record, with zeros in the bits the
      report does not show. */
  function EncodeStatus(s: StatusRecord): (regs: seq<Byte>)
    requires ValidStatus(s)
    ensures |regs| == 12 && FullyShown(regs)
  {
    PacketStatusRoundTrip(s.packetStatus);
    [ s.partNumber,
      s.version,
      s.freqOffset,
      EncodeFlagged(s.linkQuality),
      RssiRaw(s.rssiDbm),
      s.fsmState,
      s.worTime / 256,
      s.worTime % 256,
      EncodePacketStatus(s.packetStatus),
      s.vcoVcDac,
      EncodeFlagged(s.txFifo),
      EncodeFlagged(s.rxFifo) ]
  }

  /** Every record a reply can decode to is recovered from its encoding. */
  lemma DecodeEncode(s: StatusRecord)
    requires ValidStatus(s)
    ensures DecodeStatus(EncodeStatus(s)) == s
  {
    RssiReadingRoundTrip(s.rssiDbm);
    PacketStatusRoundTrip(s.packetStatus);
    FlaggedRoundTripBack(s.linkQuality);
    FlaggedRoundTripBack(s.txFifo);
    FlaggedRoundTripBack(s.rxFifo);
  }

  /** Whatever the hidden bits hold, every other bit of the twelve bytes is
      read back from the decoded report: the LQI, FIFO and PKTSTATUS bytes
      whole or less their dropped bits, the RSSI byte from its reading. */
  lemma DecodeStatusShows(regs: seq<Byte>)
    requires |regs| == 12
    ensures var s := DecodeStatus(regs);
            && s.partNumber == regs[0] && s.version == regs[1] && s.freqOffset == regs[2]
            && EncodeFlagged(s.linkQuality) == regs[3] && RssiRaw(s.rssiDbm) == regs[4]
            && s.fsmState == regs[5] % 32
            && s.worTime == regs[6] as int * 256 + regs[7] as int
            && EncodePacketStatus(s.packetStatus)
               == regs[8] - Flag(Bit(regs[8], 128), 128) - Flag(Bit(regs[8], 2), 2)
            && s.vcoVcDac == regs[9]
            && EncodeFlagged(s.txFifo) == regs[10] && EncodeFlagged(s.rxFifo) == regs[11]
  {
    RssiRoundTrip(regs[4]);
    FlaggedRoundTrip(regs[3]);
    FlaggedRoundTrip(regs[10]);
    FlaggedRoundTrip(regs[11]);
  }

  /** Register bytes whose every bit is shown are recovered from their decoding. */
  lemma EncodeDecode(regs: seq<Byte>)
    requires |regs| == 12 && FullyShown(regs)
    ensures EncodeStatus(DecodeStatus(regs)) == regs
  {
    var s := DecodeStatus(regs);
    var e := EncodeStatus(s);
    RssiRoundTrip(regs[4]);
    PacketStatusRoundTripBack(regs[8]);
    FlaggedRoundTrip(regs[3]);
    FlaggedRoundTrip(regs[10]);
    FlaggedRoundTrip(regs[11]);
    assert e[3] == regs[3] && e[4] == regs[4] && e[5] == regs[5];
    assert e[6] == regs[6] && e[7] == regs[7] && e[8] == regs[8];
    assert e[10] == regs[10] && e[11] == regs[11];
    assert forall i :: 0 <= i < 12 ==> e[i] == regs[i];
  }

  /** A bit read as a 0/1 digit gives back the flag of that digit. */
  lemma DigitBit(b: Byte, w: nat, c: bool)
    requires w in {1, 2, 4, 8, 16, 32, 64, 128}
    requires (b / w) % 2 == Digit(c)
    ensures Bit(b, w) == c
  {
  }

  lemma PacketStatusDigits(b: int, f6: int, f5: int, f4: int, f3: int, f2: int, f0: int)
    requires 0 <= f6 <= 1 && 0 <= f5 <= 1 && 0 <= f4 <= 1 && 0 <= f3 <= 1 && 0 <= f2 <= 1 && 0 <= f0 <= 1
    requires b == 64 * f6 + 32 * f5 + 16 * f4 + 8 * f3 + 4 * f2 + f0
    ensures 0 <= b < 128
    ensures && (b / 128) % 2 == 0 && (b / 64) % 2 == f6 && (b / 32) % 2 == f5 && (b / 16) % 2 == f4
            && (b / 8) % 2 == f3 && (b / 4) % 2 == f2 && (b / 2) % 2 == 0 && b % 2 == f0
  {
    SplitBit(b, 128, 0, 0, b);
    SplitBit(b, 64, 0, f6, 32 * f5 + 16 * f4 + 8 * f3 + 4 * f2 + f0);
    SplitBit(b, 32, f6, f5, 16 * f4 + 8 * f3 + 4 * f2 + f0);
    SplitBit(b, 16, 2 * f6 + f5, f4, 8 * f3 + 4 * f2 + f0);
    SplitBit(b, 8, 4 * f6 + 2 * f5 + f4, f3, 4 * f2 + f0);
    SplitBit(b, 4, 8 * f6 + 4 * f5 + 2 * f4 + f3, f2, f0);
    SplitBit(b, 2, 16 * f6 + 8 * f5 + 4 * f4 + 2 * f3 + f2, 0, f0);
    SplitBit(b, 1, 32 * f6 + 16 * f5 + 8 * f4 + 4 * f3 + 2 * f2, f0, 0);
  }

  /** x = (2 * high + bit) * w + low with low < w: bit w of x is `bit`. */
  lemma SplitBit(x: int, w: int, high: int, bit: int, low: int)
    requires w > 0 && high >= 0 && 0 <= bit <= 1 && 0 <= low < w
    requires x == (2 * high + bit) * w + low
    ensures (x / w) % 2 == bit
  {
    DivFromBracket(x, w, 2 * high + bit);
  }
}

=== FILE: transport.dfy ===
/** The command transport to the MSP430 bridge (tnc1101/radio.c, read_usb,
    init_radio, print_radio_status and radio_send_block). A request is staged in
    the 257-byte scratch buffer as `[type, length, payload...]`, a prefix of the
    buffer is written to the serial link, and the reply is polled for with a
    bounded number of non-blocking reads of up to 14 bytes, each landing at the
    start of the same buffer.

    The serial link is not modelled: what a request writes is returned as a byte
    sequence, and the successive results of the non-blocking read are an oracle,
    `attempt(i)` being what the i-th read (from 0) returns. */
module Transport {
  import opened Numeric
  import opened Wrappers
  import opened RadioStatus

  /** `dataBuffer[255+2]`, the scratch buffer shared by requests and replies. */
  const BufferSize: nat := 257

  /** The number of bytes each non-blocking read asks for. */
  const ReadChunk: nat := 14

  /** The read budget of the INIT and STATUS requests. */
  const RequestPolls: U32 := 10000

  /** The MSP430_BLOCK_TYPE_* codes, defined by the bridge interface header. */
  datatype BlockTypes = BlockTypes(init: Byte, radioStatus: Byte, tx: Byte)

  // ---------------------------------------------------------------------------
  // The request envelope

  /** A request as the bridge reads it: type, payload length, payload. */
  function Envelope(blockType: Byte, payload: seq<Byte>): (frame: seq<Byte>)
    requires |payload| < 256
    ensures |frame| == |payload| + 2
    ensures frame[0] == blockType && frame[1] == |payload| && frame[2..] == payload
  {
    [blockType, |payload|] + payload
  }

  /** How the bridge splits a frame: the length byte must count exactly the
      bytes after the header. */
  function ParseEnvelope(frame: seq<Byte>): (r: Option<(Byte, seq<Byte>)>)
    ensures r.Some? <==> |frame| >= 2 && |frame| == frame[1] as int + 2
  {
    if |frame| >= 2 && |frame| == frame[1] as int + 2 then Some((frame[0], frame[2..])) else None
  }

  lemma ParseEnvelopeRoundTrip(blockType: Byte, payload: seq<Byte>)
    requires |payload| < 256
    ensures ParseEnvelope(Envelope(blockType, payload)) == Some((blockType, payload))
  {
  }

  lemma EnvelopeRoundTrip(frame: seq<Byte>)
    requires ParseEnvelope(frame).Some?
    ensures |ParseEnvelope(frame).value.1| < 256
    ensures Envelope(ParseEnvelope(frame).value.0, ParseEnvelope(frame).value.1) == frame
  {
    assert frame == [frame[0], frame[1]] + frame[2..];
  }

  /** The scratch buffer after staging a request: type and length byte in the
      header, the payload copied after it, the rest left as it was. */
  function Stage(buffer: seq<Byte>, blockType: Byte, lengthByte: Byte, payload: seq<Byte>): (staged: seq<Byte>)
    requires |buffer| == BufferSize && |payload| <= BufferSize - 2
    ensures |staged| == BufferSize
    ensures staged[0] == blockType && staged[1] == lengthByte
    ensures staged[2..2 + |payload|] == payload
    ensures staged[2 + |payload|..] == buffer[2 + |payload|..]
  {
    [blockType, lengthByte] + payload + buffer[2 + |payload|..]
  }

  // ---------------------------------------------------------------------------
  // The polled reader

  /** What one non-blocking read returns: a count (negative for an error, 0
      for no data) and the bytes it delivered. */
  datatype ReadAttempt = ReadAttempt(count: int, data: seq<Byte>)

  /** A read of up to `ReadChunk` bytes delivers exactly `count` bytes when the
      count is positive and nothing otherwise. */
  predicate ValidAttempt(a: ReadAttempt)
  {
    a.count <= ReadChunk && |a.data| == (if a.count > 0 then a.count else 0)
  }

  ghost predicate ValidAttempts(attempt: nat -> ReadAttempt)
  {
    forall i: nat :: ValidAttempt(attempt(i))
  }

  /** The buffer after a read: the delivered bytes overwrite its start. */
  function Deliver(buffer: seq<Byte>, a: ReadAttempt): (after: seq<Byte>)
    requires |buffer| == BufferSize && ValidAttempt(a)
    ensures |after| == BufferSize
    ensures a.count > 0 ==> after[..a.count] == a.data && after[a.count..] == buffer[a.count..]
    ensures a.count <= 0 ==> after == buffer
  {
    a.data + buffer[|a.data|..]
  }

  /** C's `timeout--` on a `uint32_t`: 0 wraps to 2^32 - 1. */
  function Decrement(t: U32): (u: U32)
    ensures t > 0 ==> u == t - 1
    ensures t == 0 ==> u == U32Modulus - 1
  {
    (t - 1) % U32Modulus
  }

  /** The number of reads `read_usb` makes when none succeeds. The loop tests
      the counter after decrementing it, so a timeout of 0 first wraps and
      allows 2^32 reads. */
  function ReadBudget(timeout: U32): (n: nat)
    ensures 1 <= n <= U32Modulus
    ensures timeout >= 1 ==> n == timeout
    ensures timeout == 0 ==> n == U32Modulus
  {
    if timeout == 0 then U32Modulus else timeout
  }

  /** Reference definition of the poll from read i on: the index of the read
      that ends it, the first positive one or else the last one allowed. */
  function LastRead(attempt: nat -> ReadAttempt, i: nat, budget: nat): (k: nat)
    requires i < budget
    ensures i <= k < budget
    ensures forall j :: i <= j < k ==> attempt(j).count <= 0
    ensures attempt(k).count > 0 || k == budget - 1
    decreases budget - i
  {
    if attempt(i).count > 0 || i + 1 == budget then i else LastRead(attempt, i + 1, budget)
  }

  /** The characterisation above has exactly one solution. */
  lemma LastReadUnique(attempt: nat -> ReadAttempt, budget: nat, k: nat)
    requires k < budget
    requires forall j :: 0 <= j < k ==> attempt(j).count <= 0
    requires attempt(k).count > 0 || k == budget - 1
    ensures LastRead(attempt, 0, budget) == k
  {
  }

  /** The outcome of a poll: the count it returns, how many reads it made and
      the buffer it leaves. */
  datatype PollOutcome = PollOutcome(nbytes: int, polls: nat, buffer: seq<Byte>)

  /** The outcome of polling with a budget, as a closed form. */
  function Poll(buffer: seq<Byte>, timeout: U32, attempt: nat -> ReadAttempt): (p: PollOutcome)
    requires |buffer| == BufferSize && ValidAttempts(attempt)
    ensures 1 <= p.polls <= ReadBudget(timeout)
    ensures p.nbytes == attempt(p.polls - 1).count
    ensures p.nbytes > 0 || p.polls == ReadBudget(timeout)
    ensures forall j :: 0 <= j < p.polls - 1 ==> attempt(j).count <= 0
    ensures |p.buffer| == BufferSize
  {
    var k := LastRead(attempt, 0, ReadBudget(timeout));
    PollOutcome(attempt(k).count, k + 1, Deliver(buffer, attempt(k)))
  }

  /** A successful poll overwrites only the bytes it delivered. */
  lemma PollKeepsUndelivered(buffer: seq<Byte>, timeout: U32, attempt: nat -> ReadAttempt)
    requires |buffer| == BufferSize && ValidAttempts(attempt)
    ensures var p := Poll(buffer, timeout, attempt);
            p.nbytes > 0 ==> p.buffer[..p.nbytes] == attempt(p.polls - 1).data
                             && p.buffer[p.nbytes..] == buffer[p.nbytes..]
    ensures Poll(buffer, timeout, attempt).nbytes <= 0 ==> Poll(buffer, timeout, attempt).buffer == buffer
  {
  }

  /** A read index that satisfies the characterisation of the poll's end
      determines its whole outcome. */
  lemma PollEnds(buffer: seq<Byte>, timeout: U32, attempt: nat -> ReadAttempt, k: nat)
    requires |buffer| == BufferSize && ValidAttempts(attempt)
    requires k < ReadBudget(timeout)
    requires forall j :: 0 <= j < k ==> attempt(j).count <= 0
    requires attempt(k).count > 0 || k == ReadBudget(timeout) - 1
    ensures Poll(buffer, timeout, attempt) == PollOutcome(attempt(k).count, k + 1, Deliver(buffer, attempt(k)))
  {
    LastReadUnique(attempt, ReadBudget(timeout), k);
  }

  /** `read_usb`: read, then retry while nothing arrived and the counter,
      decremented after every read, is not zero. */
  method ReadUsb(buffer: seq<Byte>, timeout: U32, attempt: nat -> ReadAttempt)
    returns (nbytes: int, polls: nat, after: seq<Byte>)
    requires |buffer| == BufferSize && ValidAttempts(attempt)
    ensures 1 <= polls <= ReadBudget(timeout) && |after| == BufferSize
    ensures timeout >= 1 ==> polls <= timeout
    ensures nbytes == attempt(polls - 1).count
    ensures forall j :: 0 <= j < polls - 1 ==> attempt(j).count <= 0
    ensures nbytes > 0 || polls == ReadBudget(timeout)
    ensures after == Deliver(buffer, attempt(polls - 1))
    ensures PollOutcome(nbytes, polls, after) == Poll(buffer, timeout, attempt)
  {
    var t := timeout;
    var a := attempt(0);
    after := Deliver(buffer, a);
    polls := 1;
    t := Decrement(t);
    while a.count <= 0 && t > 0
      invariant 1 <= polls <= ReadBudget(timeout)
      invariant t == ReadBudget(timeout) - polls
      invariant a == attempt(polls - 1)
      invariant forall j :: 0 <= j < polls - 1 ==> attempt(j).count <= 0
      invariant after == Deliver(buffer, a)
      decreases t
    {
      a := attempt(polls);
      after := Deliver(after, a);
      polls := polls + 1;
      t := Decrement(t);
    }
    nbytes := a.count;
    PollEnds(buffer, timeout, attempt, polls - 1);
  }

  // ---------------------------------------------------------------------------
  // Requests

  /** What a request does: the scratch buffer it stages, the bytes it writes
      and the outcome of the poll for the reply. */
  datatype Exchange = Exchange(staged: seq<Byte>, written: seq<Byte>, reply: PollOutcome)

  /** `init_radio`: the encoded parameter record as the payload of an INIT
      request, written whole, then a poll with budget 10000. */
  method InitRadio(buffer: seq<Byte>, types: BlockTypes, parms: seq<Byte>, attempt: nat -> ReadAttempt)
    returns (x: Exchange)
    requires |buffer| == BufferSize && |parms| < 256 && ValidAttempts(attempt)
    ensures |x.staged| == BufferSize
    ensures x.staged == Stage(buffer, types.init, |parms|, parms)
    ensures x.written == Envelope(types.init, parms)
    ensures ParseEnvelope(x.written) == Some((types.init, parms))
    ensures x.staged[..|parms| + 2] == x.written
    ensures 1 <= x.reply.polls <= RequestPolls
    ensures x.reply == Poll(x.staged, RequestPolls, attempt)
  {
    var staged := Stage(buffer, types.init, |parms|, parms);
    var written := staged[..staged[1] + 2];
    var nbytes, polls, after := ReadUsb(staged, RequestPolls, attempt);
    ParseEnvelopeRoundTrip(types.init, parms);
    x := Exchange(staged, written, PollOutcome(nbytes, polls, after));
  }

  /** The request half of `print_radio_status`: an empty STATUS request and a
      poll with budget 10000. */
  method RequestStatus(buffer: seq<Byte>, types: BlockTypes, attempt: nat -> ReadAttempt)
    returns (x: Exchange)
    requires |buffer| == BufferSize && ValidAttempts(attempt)
    ensures |x.staged| == BufferSize
    ensures x.staged == Stage(buffer, types.radioStatus, 0, [])
    ensures x.written == Envelope(types.radioStatus, []) && x.staged[..2] == x.written
    ensures x.reply == Poll(x.staged, RequestPolls, attempt)
    ensures x.reply.nbytes > 0 ==> x.reply.buffer[x.reply.nbytes..] == x.staged[x.reply.nbytes..]
  {
    var staged := Stage(buffer, types.radioStatus, 0, []);
    var written := staged[..2];
    var nbytes, polls, after := ReadUsb(staged, RequestPolls, attempt);
    x := Exchange(staged, written, PollOutcome(nbytes, polls, after));
    PollKeepsUndelivered(staged, RequestPolls, attempt);
  }

  /** `print_radio_status`, up to the printing: when the count is positive,
      the twelve bytes after the reply header are decoded. Only the sign of the
      count is checked, so a reply shorter than 14 bytes is decoded with bytes
      left in the caller's buffer from before the request. */
  method PrintRadioStatus(buffer: seq<Byte>, types: BlockTypes, attempt: nat -> ReadAttempt)
    returns (x: Exchange, status: Option<StatusRecord>)
    requires |buffer| == BufferSize && ValidAttempts(attempt)
    ensures |x.staged| == BufferSize
    ensures x.written == Envelope(types.radioStatus, [])
    ensures x.reply == Poll(x.staged, RequestPolls, attempt)
    ensures status.Some? <==> x.reply.nbytes > 0
    ensures status.Some? ==> status.value == DecodeStatus(x.reply.buffer[2..14])
    ensures x.staged[..2] == x.written && x.staged[2..] == buffer[2..]
    ensures x.reply.nbytes > 0 ==> x.reply.buffer[x.reply.nbytes..] == x.staged[x.reply.nbytes..]
    ensures x.reply.nbytes >= 2 ==> x.reply.buffer[x.reply.nbytes..] == buffer[x.reply.nbytes..]
  {
    x := RequestStatus(buffer, types, attempt);
    if x.reply.nbytes >= 2 {
      assert x.staged[x.reply.nbytes..] == x.staged[2..][x.reply.nbytes - 2..];
    }
    if x.reply.nbytes > 0 {
      status := Some(DecodeStatus(x.reply.buffer[2..14]));
    } else {
      status := None;
    }
  }

  /** The length byte of a TX request: `dataBlock[0] + 2` in a `uint8_t`. */
  function TxLength(block: seq<Byte>): (n: Byte)
    requires |block| >= 1
    ensures block[0] <= 253 ==> n == block[0] + 2
    ensures block[0] >= 254 ==> n == block[0] - 254
  {
    (block[0] as int + 2) % 256
  }

  /** A block too long for the header wraps its length byte to 0 or 1, so
      fewer bytes than the block holds are staged. */
  lemma TxLengthWraps(block: seq<Byte>)
    requires |block| >= 1 && block[0] >= 254
    ensures TxLength(block) < 2 && TxLength(block) < block[0] as int + 2
  {
  }

  /** The bytes `memcpy` reads from the caller's block are all there. */
  predicate ValidBlock(block: seq<Byte>)
  {
    |block| >= 1 && |block| >= TxLength(block)
  }

  /** `radio_send_block` as written: the block (size byte, countdown byte,
      data) is staged after a TX header whose length byte counts it, but only
      the two header bytes are written; then a poll with budget
      `timeout_us / 10`. */
  method RadioSendBlock(buffer: seq<Byte>, types: BlockTypes, block: seq<Byte>, timeoutUs: U32,
                        attempt: nat -> ReadAttempt)
    returns (x: Exchange)
    requires |buffer| == BufferSize && ValidBlock(block) && ValidAttempts(attempt)
    ensures |x.staged| == BufferSize
    ensures x.staged == Stage(buffer, types.tx, TxLength(block), block[..TxLength(block)])
    ensures x.staged[..TxLength(block) + 2] == Envelope(types.tx, block[..TxLength(block)])
    ensures x.written == [types.tx, TxLength(block)]
    ensures x.reply == Poll(x.staged, timeoutUs / 10, attempt)
  {
    var n := TxLength(block);
    var staged := Stage(buffer, types.tx, n, block[..n]);
    var written := staged[..2];
    var nbytes, polls, after := ReadUsb(staged, timeoutUs / 10, attempt);
    x := Exchange(staged, written, PollOutcome(nbytes, polls, after));
  }

  /** Whenever the block stages any byte, the frame written as above is not a
      well-formed request: its length byte announces bytes that never follow. */
  lemma SendBlockFrameIncomplete(types: BlockTypes, block: seq<Byte>)
    requires ValidBlock(block) && TxLength(block) > 0
    ensures ParseEnvelope([types.tx, TxLength(block)]).None?
  {
  }

  /** A concrete block showing it: one data byte, so the length byte announces
      three bytes after the header, and only the two header bytes are sent. */
  lemma SendBlockFrameIncompleteExample(types: BlockTypes)
    ensures TxLength([1, 0, 0x55]) == 3
    ensures ParseEnvelope([types.tx, TxLength([1, 0, 0x55])]).None?
  {
  }

  /** `radio_send_block` as evidently intended: the staged frame, header and
      block, is written whole, so the bridge reads back exactly the block. */
  method RadioSendBlockCorrected(buffer: seq<Byte>, types: BlockTypes, block: seq<Byte>, timeoutUs: U32,
                                 attempt: nat -> ReadAttempt)
    returns (x: Exchange)
    requires |buffer| == BufferSize && ValidBlock(block) && ValidAttempts(attempt)
    ensures |x.staged| == BufferSize
    ensures x.staged == Stage(buffer, types.tx, TxLength(block), block[..TxLength(block)])
    ensures x.written == Envelope(types.tx, block[..TxLength(block)])
    ensures ParseEnvelope(x.written) == Some((types.tx, block[..TxLength(block)]))
    ensures block[0] <= 253 ==> ParseEnvelope(x.written) == Some((types.tx, block[..block[0] + 2]))
    ensures x.reply == Poll(x.staged, timeoutUs / 10, attempt)
  {
    var n := TxLength(block);
    var staged := Stage(buffer, types.tx, n, block[..n]);
    var written := staged[..n + 2];
    ParseEnvelopeRoundTrip(types.tx, block[..n]);
    var nbytes, polls, after := ReadUsb(staged, timeoutUs / 10, attempt);
    x := Exchange(staged, written, PollOutcome(nbytes, polls, after));
  }
}

=== FILE: wrappers.dfy ===
/** The optional value used where the C code has a "no result" path. */
module Wrappers {

  datatype Option<+T> = None | Some(value: T)
}
